=== FILE: README.md ===
# Face detection with optical-flow tracking, modelled in Dafny

The program runs an SSD-style face detector on a video stream every 30th
frame and, in between, follows the faces with forward-backward optical flow.
This project models its core as pure functions over immutable data:

- `BaseDetectors` (`base_detector.dfy`) models the request lifecycle shared by
  every detector. Enablement is decided lazily from the model path and then
  cached. Every backend call first asks whether the detector is enabled.
  Submit also needs a request, and it starts it asynchronously or runs it
  synchronously depending on the mode. Wait and status need a request and the
  asynchronous mode as well. The performance-counter dump is guarded by
  "enabled" only. Loading a detector onto a plugin is modelled too. Every call into the inference
  backend is appended to a call log, and `InFlight` counts the asynchronous
  executions started and not yet waited for.
- `DetectionOutput` (`detection_output.dfy`) models how the raw output buffer
  becomes face boxes:
  - records of 7 values each;
  - the confidence threshold and the negative-image-id sentinel;
  - normalised corners converted to pixels;
  - the square-and-enlarge rule with coefficient 1.2.

  It also models the label-list repair and the output-shape checks that run
  when the network is read.
- `FaceDetectors` (`face_detector.dfy`) models the face detector's own state:
  enqueue, submit once per enqueued frame, fetch once per submit, and `read`.
- `Tracking` (`tracking.dfy`) models the forward-backward filter with a
  one-pixel tolerance, the mean position, and the recentering of every box on
  that mean. It also models a pass over a whole frame queue.
- `Fusion` (`fusion.dfy`) models one iteration of the main loop. The frame
  counter is incremented. On a cadence frame whose status poll reports Ok,
  the result is harvested and, unless this is the last frame, the frame is
  resubmitted; on every other frame the frame is queued. The next frame is
  read; a failed read leaves an empty matrix behind.
  Tracking then runs, either across the bracketed queue or between
  consecutive frames. Finally the loop exits or rotates its frames.
- `Timing` (`timing.dfy`) models the call statistics: a count, a total, and
  an exponential moving average with weight 0.1 seeded by the first sample.
  Named timers are a map from names to statistics, and an unknown name is an
  error.
- `Results`, `Cv` and `CppNumerics` are support modules:
  - `Option` and `Result`;
  - points, integer rectangles and frames as opaque images;
  - C++ float-to-int truncation and integer division, both toward zero.

Floating-point values are real numbers. A conversion into an `int` field is
written out as truncation toward zero. `/` on C++ `int` is written out as
division toward zero.

Everything the loop receives from outside is a parameter:

- the backend's answer to a status poll;
- the output buffer;
- the next video frame;
- the corners found on the detection frame;
- a key press;
- clock readings;
- the optical flow itself, a function from (pyramid depth, from-frame,
  to-frame, points) to one position per point.

The frame queue is not bounded by the detection cadence. The loop clears it
only on a cadence frame that has detections (main.cpp:194-266). While no face
is known, every frame that is not harvested is queued and nothing is removed,
so the queue keeps growing. `Fusion.QueueNeverShrinksWithoutFaces` states this
behaviour.

Two behaviours of the loop are modelled exactly as written:

- Between cadence frames, boxes are recentred on the mean of the points
  before the forward-backward filter (`Fusion.BetweenCadenceMeanIsPreFilter`).
- On a queue pass, a step that keeps no point recentres every box on the
  origin (`Tracking.NoSurvivorsRecentresOnOrigin`).

## Model

| member | source | states |
|---|---|---|
| `BaseDetectors.New` | base_detector.cpp:6-16 | a new detector stores its name, model path and mode, and has enablement unchecked, no request, nothing loaded and no backend calls |
| `BaseDetectors.Enabled` | base_detector.cpp:46-55 | the first call decides "model path non-empty" and caches it; later calls return the cached answer and change nothing |
| `BaseDetectors.EnabledIsCached` | base_detector.cpp:46-55 | asking again after the first answer returns the same answer and leaves the detector as it was |
| `BaseDetectors.EnabledIffModelPath` | base_detector.cpp:46-55 | for a detector whose cache agrees with its path, enabled holds iff the model path is non-empty, before and after caching |
| `BaseDetectors.Submit` | base_detector.cpp:24-32 | exactly one backend call (StartAsync if asynchronous, Infer otherwise) iff enabled with a request; otherwise no call |
| `BaseDetectors.Wait` | base_detector.cpp:34-38 | a result-ready wait is issued iff enabled, with a request and asynchronous; otherwise no call |
| `BaseDetectors.Status` | base_detector.cpp:40-44 | GeneralError unless enabled, with a request and asynchronous; otherwise the backend's status-only answer, recorded as one poll |
| `BaseDetectors.StatusOkIff` | base_detector.cpp:40-44 | status reports Ok iff all three guards pass and the backend reports Ok |
| `BaseDetectors.SyncStatusNeverOk` | base_detector.cpp:40-44 | a synchronous detector reports GeneralError and never polls the backend |
| `BaseDetectors.PrintPerformanceCounts` | base_detector.cpp:57-63 | reads the performance counters once when enabled and does nothing else; requires a request when enabled, because the source dereferences it unchecked |
| `BaseDetectors.LoadConfig` | base_detector.cpp:70-73 | the configuration holds the dynamic-batch key set to YES iff dynamic batching is asked for, and nothing else |
| `BaseDetectors.Into` | base_detector.cpp:68-77 | a disabled detector is untouched except for the cached enablement; an enabled one propagates a read failure, or is loaded once onto the plugin with the read network and that configuration |
| `BaseDetectors.WaitThenSubmitKeepsOneInFlight` | base_detector.cpp:24-38 | after a wait nothing is outstanding, and after the following submit exactly one execution is |
| `DetectionOutput.Records` | face_detector.cpp:120-126 | the buffer is read as `maxProposalCount` consecutive records of 7 values |
| `DetectionOutput.PixelBox` | face_detector.cpp:132-135 | the corner is the truncated scaled minimum; on both axes the far edge is the truncated scaled maximum up to one pixel |
| `DetectionOutput.SquareEnlarge` | face_detector.cpp:137-153 | the result is a square whose side is 1.2 times the larger side, truncated, with the same integer centre as the box |
| `DetectionOutput.SquareEnlargeContains` | face_detector.cpp:137-153 | for a box of non-negative size, the enlarged square contains the box |
| `DetectionOutput.ToDetection` | face_detector.cpp:123-153 | a record's detection keeps its confidence, has its class id truncated toward zero, and is a square on the pixel box's integer centre whose side is 1.2 times the pixel box's larger side, truncated |
| `DetectionOutput.Parse` | face_detector.cpp:122-166 | at most one detection per record, each strictly above the threshold and square |
| `DetectionOutput.ParseIsFilteredPrefix` | face_detector.cpp:122-166 | the detections are exactly the above-threshold records before the first above-threshold record with a negative image id, converted in order |
| `DetectionOutput.RecordsAfterSentinelIgnored` | face_detector.cpp:155-157 | an above-threshold sentinel at index i leaves at most i detections |
| `DetectionOutput.ThresholdTestComesFirst` | face_detector.cpp:128-157 | a record at or below the threshold is skipped whatever its image id, leaving the scan of the rest unchanged; an above-threshold sentinel ends the scan with no detection |
| `DetectionOutput.ParseIgnoresBufferTail` | face_detector.cpp:122-126 | only the first `maxProposalCount` records of the buffer are read: cutting the buffer after them does not change the detections |
| `DetectionOutput.RepairLabels` | face_detector.cpp:91-97 | a list of `num_classes` labels is kept; one short gets "fake" in front; any other length is cleared |
| `DetectionOutput.RepairedLabelsCoverClasses` | face_detector.cpp:92-94 | after the placeholder is prepended, class 0 is "fake" and class c > 0 names the file's label c - 1 |
| `DetectionOutput.CheckOutputDimsAsWritten` | face_detector.cpp:98-107 | the checks in source order: fourth dimension 7 first, then rank 4; accepted iff rank 4 and fourth dimension 7; this order needs at least four dimensions |
| `DetectionOutput.CheckOutputDims` | face_detector.cpp:98-107 | a rank below four is rejected before any dimension is read; otherwise same outcome as the written order; accepted iff rank 4 and fourth dimension 7 |
| `DetectionOutput.RankThreeOutputIndexedOutOfBounds` | face_detector.cpp:98-104 | the rank-3 output [1, 1, 200] is outside what the written order can index, and the corrected checks reject it by rank |
| `FaceDetectors.New` | face_detector.cpp:6-13 | the base detector is built from the model path and mode under the name "Face Detection"; the threshold is stored; no frame waiting, nothing fetched, no results, no labels, no request, and no frame size yet |
| `FaceDetectors.NewEnabledIffModelPath` | base_detector.cpp:46-55 | a face detector built with a model path is enabled iff that path is non-empty |
| `FaceDetectors.Read` | face_detector.cpp:40-107 | accepted iff one input, one output, a DetectionOutput layer with num_classes, and a rank-4 output with last dimension 7; the input and output counts are checked first; on acceptance the proposal count is dimension 2 and the labels are repaired |
| `FaceDetectors.LoadInto` | base_detector.cpp:68-77 | a disabled face detector is untouched; an enabled one loads iff its read succeeds, with the network and configuration recorded |
| `FaceDetectors.Enqueue` | face_detector.cpp:23-38 | on an enabled detector: creates a request only if there is none, records the frame size, hands the frame over and marks one frame waiting; otherwise nothing |
| `FaceDetectors.SubmitRequest` | face_detector.cpp:15-21 | with no frame waiting nothing changes; otherwise clears the waiting mark, the fetched flag and the results, and submits the base request |
| `FaceDetectors.FetchResults` | face_detector.cpp:115-166 | on an enabled detector the results are cleared; only the first fetch after a submit parses the output; there are at most `maxProposalCount` results, each above the threshold and square |
| `FaceDetectors.Status` | base_detector.cpp:40-44 | when enabled, with a request and asynchronous, the backend's answer to one status-only poll; otherwise GeneralError with no backend call; only the base detector changes |
| `FaceDetectors.Wait` | base_detector.cpp:34-38 | appends a result-ready wait when the three guards pass, and makes no backend call otherwise; only the base detector changes |
| `FaceDetectors.SecondFetchIsEmpty` | face_detector.cpp:115-119 | a second fetch without a submit in between yields no results |
| `FaceDetectors.EnqueueSubmitFetch` | face_detector.cpp:15-38 | enqueue, submit, fetch yields the parse of the output against the enqueued frame's size |
| `FaceDetectors.SubmitWithoutFrameIsInert` | face_detector.cpp:15-16 | submitting with no frame waiting never reaches the backend, however often it is repeated |
| `FaceDetectors.DoubleSubmitStartsOnce` | face_detector.cpp:15-21 | a second submit after one enqueue changes nothing |
| `Tracking.Survivors` | main.cpp:280-287 | the forward-backward filter keeps at most as many points as it is given |
| `Tracking.KeptIndices` | main.cpp:281-286 | the increasing list of exactly the indices whose round trip ends within one pixel in both coordinates |
| `Tracking.SurvivorsAreKeptForwardPositions` | main.cpp:280-287 | the k-th survivor is the forward position of the k-th consistent index: exactly the consistent points, in order |
| `Tracking.ZeroErrorKeepsAll` | main.cpp:281-286 | points that come back exactly where they started all survive |
| `Tracking.LargeErrorIsDropped` | main.cpp:282-285 | a point off by more than one pixel in either coordinate is dropped |
| `Tracking.ConsistentIffWithinOnePixel` | main.cpp:282-284 | a round trip passes the `MAX(diff_x, diff_y) <= 1.0` test iff it ends at most one pixel away in each coordinate, either way; the queue pass uses the same test (main.cpp:232-234) |
| `Tracking.Accumulate` | main.cpp:289-292 | adding each point divided by n, one after another from the origin, gives the sum of the points divided by n |
| `Tracking.Mean` | main.cpp:289-292 | the mean of a non-empty point set is its sum divided by its size; an empty set gives the origin; the queue pass computes it the same way (main.cpp:239-242) |
| `Tracking.MeanInBox` | main.cpp:289-292 | the mean of a non-empty point set lies in every axis-aligned box that holds all its points |
| `Tracking.RecenterBox` | main.cpp:294-297 | recentering keeps class, confidence, width and height |
| `Tracking.Recenter` | main.cpp:294-297 | every box is recentred on the same mean, in place |
| `Tracking.RecenteredBoxesShareCentre` | main.cpp:294-297 | each recentred box's integer centre is within one pixel of the mean, and boxes of the same size land on the same rectangle |
| `Tracking.TrackStep` | main.cpp:269-300 | with no points nothing changes; otherwise no point is gained and every box keeps its shape |
| `Tracking.NoSurvivorsRecentresOnOrigin` | main.cpp:239-253 | on a queue pass, a step that loses every point recentres the boxes on the origin and leaves no points |
| `Tracking.Pairs` | main.cpp:218-228 | a queue of n frames gives the n - 1 consecutive pairs, in order |
| `Tracking.TrackPairs` | main.cpp:218-263 | a pass never gains points and keeps every box's shape |
| `Tracking.TrackQueue` | main.cpp:214-264 | tracking across a queue never gains points and keeps every box's shape; a queue of fewer than two frames changes nothing |
| `Tracking.StillStepKeepsPoints` | main.cpp:269-300 | with no motion every point survives and the boxes are recentred on the points' mean |
| `Tracking.StillPassKeepsPoints` | main.cpp:218-263 | with no motion a whole queue pass keeps the point set |
| `Tracking.PassWithoutPointsIsInert` | main.cpp:218-219 | a queue pass that starts without points changes nothing |
| `Fusion.Start` | main.cpp:127-148 | fails iff the first frame cannot be read; otherwise the first frame is enqueued and submitted and becomes the detection and previous frame, the previous detection frame and the next frame are empty, and the second frame is current, or the empty matrix if it could not be read |
| `Fusion.StartKeepsOneInFlight` | main.cpp:137-140 | from a detector with nothing outstanding, the set-up leaves at most one asynchronous execution outstanding, the base case for `Fusion.StepKeepsOneInFlight` |
| `Fusion.Harvests` | main.cpp:166 | a frame is harvested iff it is a cadence frame and the detector is enabled, has a request, is asynchronous and the backend reports Ok |
| `Fusion.Harvested` | main.cpp:166-170 | a harvest leaves the results fetched and every one above the threshold |
| `Fusion.Dispatch` | main.cpp:165-183 | without a harvest only the frame is queued; with one, the results become the boxes and, unless it is the last frame, the frame is enqueued and submitted and the detection frames shift |
| `Fusion.Bracketed` | main.cpp:216-217 | the queue with the previous detection frame in front and the current one behind |
| `Fusion.Track` | main.cpp:192-301 | a cadence frame with boxes tracks the bracketed queue and clears it; a cadence frame without boxes changes nothing; between cadence frames one step from the previous frame |
| `Fusion.BeforeTracking` | main.cpp:161-190 | the counter is incremented; the current and previous frames stay; unless this is the last frame, the next frame and read status come from the read; between cadence frames the queue grows by the current frame and points, boxes and detection frames stay |
| `Fusion.Phases` | main.cpp:161-301 | after counting, dispatching, reading and tracking, the counter is one higher, the current and previous frames are unchanged, and a read next frame is in place |
| `Fusion.PhasesBetweenCadence` | main.cpp:181-300 | between cadence frames the phases queue the frame, gain no point, keep every box's shape and leave the detection frames alone |
| `Fusion.Advance` | main.cpp:362-377 | exits iff last frame or key press; otherwise current becomes previous and next becomes current |
| `Fusion.Step` | main.cpp:161-377 | one iteration: the counter increases by one; exit iff the last frame or a key; on continue the frames rotate, and the new current frame is the read frame, or the empty matrix when the read failed; between cadence frames the queue grows by the frame, no point is gained, boxes keep their shape and the detection frames stay |
| `Fusion.BracketedPairs` | main.cpp:216-218 | a queue of n frames is tracked in n + 1 steps, from the previous to the current detection frame |
| `Fusion.SyncDetectorNeverHarvests` | main.cpp:166 | a synchronous detector's results are never harvested by the loop |
| `Fusion.CadenceQueue` | main.cpp:181-266 | on a cadence frame with boxes the queue ends empty; without boxes it is unchanged or grown by the frame |
| `Fusion.QueueNeverShrinksWithoutFaces` | main.cpp:181-266 | when no box is known after an iteration, the queue did not shrink |
| `Fusion.BetweenCadenceMeanIsPreFilter` | main.cpp:289-299 | between cadence frames the boxes are recentred on the mean of the points before filtering, and the points become the survivors |
| `Fusion.StepKeepsOneInFlight` | main.cpp:166-176 | an iteration keeps at most one asynchronous execution outstanding |
| `Fusion.FailedReadLeavesEmptyFrame` | main.cpp:185-189 | after a failed read the loop goes round once more with the empty matrix as its current frame, and that iteration exits whatever it observes |
| `Fusion.DispatchKeepsOneInFlight` | main.cpp:166-176 | harvest-and-resubmit waits before it starts, so at most one execution stays outstanding |
| `CppNumerics.Trunc` | face_detector.cpp:132-139 | converting a floating-point value to `int` rounds toward zero: the result is within one unit and never further from zero than the value |
| `CppNumerics.Half` | face_detector.cpp:141-150 | `int` division by 2 rounds toward zero: the remainder is 0 or 1 for a non-negative value, and 0 or -1 for a negative one |
| `Timing.NewCallStat` | utils.cpp:4-6 | no calls, zero total and last duration, and no average yet |
| `Timing.AddSample` | utils.cpp:24-31 | one more call; the total grows by the duration; the first sample seeds the average; afterwards the distance to the sample shrinks by a factor of 0.9, so the average stays between its old value and the sample |
| `Timing.CalculateDuration` | utils.cpp:22-32 | the last duration is the time since the start; one more call; the total grows by it; a first measurement becomes the average |
| `Timing.SetStartTime` | utils.cpp:34-36 | only the start reading changes |
| `Timing.GetSmoothedDuration` | utils.cpp:8-16 | the average once there is one; before that the time since the last start |
| `Timing.AddSamplesCountsAndSums` | utils.cpp:18-32 | after any samples the count grows by their number and the total duration by their sum |
| `Timing.AddSamplesStayInRange` | utils.cpp:27-31 | after at least one sample, the average lies in any range holding every sample and the starting average |
| `Timing.FreshAverageInRange` | utils.cpp:4-32 | from a fresh statistic, n samples give n calls, their sum as total, and an average between their extremes |
| `Timing.Start` | utils.cpp:39-44 | creates the statistic only if the name is new, sets its start, and changes no other timer |
| `Timing.Get` | utils.cpp:51-56 | succeeds iff the name is known, returning its statistic; an unknown name is a NoTimer error |
| `Timing.Finish` | utils.cpp:46-49 | fails iff the name is unknown and then creates nothing; otherwise records the duration since the start and changes no other timer |
| `Timing.StartThenFinish` | utils.cpp:39-49 | start then finish always succeeds and records exactly the time between them as one more call |
| `Timing.FirstMeasurementSeedsAverage` | utils.cpp:8-32 | the first measurement of a new timer is its total and its average, and is what the smoothed duration then reports |

## Left out

- Image processing is left out: decoding video, converting to blobs, drawing,
  showing windows, grey conversion and corner detection. The
  Inference Engine's own work is left out too. Frames are opaque images; the
  corners and the optical flow are parameters.
- Logging, the text of the performance-counter dump and the raw-output
  messages of `fetchResults` are left out: they only write text. The counter
  read itself is modelled by `BaseDetectors.PrintPerformanceCounts`.
- Command-line parsing (main.cpp:20-38) and plugin selection (main.cpp:67-106)
  are left out: they only configure flags and the backend, or stop the
  program before the loop when `-i` or `-m` is missing.
- Timers inside the loop (main.cpp:137-159, 167-189, 311-371) and the
  visualisation block (main.cpp:309-360) are left out. They do not affect
  detection or tracking.
- Clocks are parameters. `std::chrono` readings are passed in as real numbers
  of milliseconds.
- Floating point is modelled by real numbers, so `float`/`double` rounding is
  not modelled. Reals have no NaN or infinity, so NaN or infinite confidences
  and coordinates are not modelled either. A float-to-int conversion whose
  value is outside the range of `int` is undefined in C++; `CppNumerics.Trunc`
  returns the unbounded truncation instead.
- `abs` in main.cpp:232-233 (queue pass) and main.cpp:282-283 (between
  cadence frames) is assumed to be the floating-point overload. An integer
  `abs` would truncate the differences before the tolerance test.
- `Fusion.Step`: optical flow is a total function in the model. After a
  failed read the last iteration's current frame is the empty matrix, and
  `calcOpticalFlowPyrLK` is then called with it: between cadence frames when
  points remain (main.cpp:275-278), or across a queue that holds it
  (main.cpp:225-228). OpenCV may reject an empty image with an exception. That
  would end the program through the handler at main.cpp:389-391 instead of the
  `break` at main.cpp:369. The model lets that iteration finish and exit
  normally; `Fusion.FailedReadLeavesEmptyFrame` states which frame it tracks.
  In the same way, `prev_detect_frame` starts as an empty matrix
  (main.cpp:128; `Fusion.Start` states it) and is replaced only when a
  harvest happens on a frame that is not the last (main.cpp:177). If the
  first harvest happens on the last frame and yields faces, the cadence pass
  shows, converts and searches the empty `prev_detect_frame`
  (main.cpp:204-211), which OpenCV may reject with an exception ending the
  program at main.cpp:389-391. The model tracks the bracketed queue from that
  empty frame and exits normally.
- `framesCounter` is a `size_t` and can wrap around. The model's counter is
  unbounded.
- `cv::Mat` assignment shares pixel buffers. The frames that alias the
  decoder's buffer (the first frame and the detection frame, main.cpp:138-147)
  are treated as independent images.
- `maxBatch`, `deviceForInference`, `isBatchDynamic` and `doRawOutputMessages`
  are left out. The batch size is only passed to the backend, and the rest
  only selects plugins or printing.
- `FaceDetectors.New`: `maxProposalCount` is uninitialised before `read` in
  the source. The model starts it at 0, so nothing is scanned before a
  network is read.
- The `objectSize` field is replaced by the constant 7. `read` rejects every
  other value before any fetch.
- `maxProposalCount` is an `int` assigned from a `size_t` dimension. The
  narrowing is not modelled.
- `FaceDetectors.Read` uses the corrected `DetectionOutput.CheckOutputDims`,
  so an output of rank below four is rejected as `WrongRank`. The source
  first reads dimensions 2 and 3 out of bounds (face_detector.cpp:98-103);
  see "## Findings".
- `FaceDetectors.Read`: when `read` throws after the labels were read, the
  source leaves the appended and repaired labels in the object. The model
  returns the error without the partly updated detector. The exception ends
  the program in any case.
- The label comparison in face_detector.cpp:92-93 mixes `size_t` and `int`.
  The model compares unbounded integers. This agrees with the source except
  for class counts near the integer limits.
- Reading the label file and the network files is left out: the label words
  and the network description are parameters.
- `FaceDetectors.FetchResults` requires a request to exist when it parses,
  because the source dereferences it without a check.
  `BaseDetectors.PrintPerformanceCounts` has the same requirement.
- `Timing.GetTotalDuration` is a plain accessor with no contract of its own.
  `Timing.AddSamplesCountsAndSums` states what it returns.
- `Timing.FirstMeasurementSeedsAverage`: the reported smoothed duration
  equals the measured time only when the clock did not run backwards. For a
  negative measurement the average stays negative, and the time since the
  start is reported instead; the lemma states both cases.

## Findings

| source | as written | input that shows it | evidently intended | confidence | as-written member | corrected member |
|---|---|---|---|---|---|---|
| face_detector.cpp:98-107 | dimensions 2 and 3 of the output are read before the rank is checked to be 4 | an output of rank 3 such as [1, 1, 200]: `outputDims[3]` is out of bounds | reject a rank other than 4 before reading any dimension | not executed | `DetectionOutput.CheckOutputDimsAsWritten` | `DetectionOutput.CheckOutputDims` |

=== FILE: base_detector.dfy ===
/**
 The request lifecycle shared by every detector (base_detector.cpp): enablement
 decided lazily from the model path and cached, and every call into the
 inference backend guarded by it. Submitting also needs a request, and runs it
 asynchronously or synchronously by mode; waiting and polling need a request
 and the asynchronous mode; the performance-counter dump needs only enablement.

 The backend is opaque. What a detector does to it is recorded, in order, in
 `calls`; the only thing the backend hands back to the lifecycle is the status
 of a status-only poll, which the caller supplies.
 */
module BaseDetectors {
  import opened Results
  import opened Cv

  /** The `InferenceEngine::StatusCode` values a status-only poll can report. */
  datatype StatusCode =
    | Ok
    | GeneralError
    | ResultNotReady
    | RequestBusy
    | InferNotStarted
    | NetworkNotLoaded

  /** What the network files describe, as far as the face detector inspects them. */
  datatype NetworkInfo = NetworkInfo(
    inputCount: nat,
    outputCount: nat,
    outputLayerType: string,
    numClasses: Option<int>,
    outputDims: seq<nat>)

  /** A network loaded onto a plugin with a plugin configuration. */
  datatype ExecutableNetwork = ExecutableNetwork(network: NetworkInfo, config: map<string, string>)

  type PluginId = nat

  /** One call from a detector into the inference backend. */
  datatype BackendCall =
    | CreateInferRequest
    | SetInput(frame: Mat)
    | StartAsync
    | Infer
    | WaitResultReady
    | WaitStatusOnly
    | GetOutput
    | GetPerformanceCounts
    | LoadNetwork(plugin: PluginId, network: NetworkInfo, config: map<string, string>)

  datatype Detector = Detector(
    topoName: string,
    pathToModel: string,
    isAsync: bool,
    enablingChecked: bool,
    enabledCache: bool,
    hasRequest: bool,
    net: Option<ExecutableNetwork>,
    plugin: Option<PluginId>,
    calls: seq<BackendCall>)

  /** `PluginConfigParams::KEY_DYN_BATCH_ENABLED` and `PluginConfigParams::YES`. */
  const KeyDynBatchEnabled: string := "DYN_BATCH_ENABLED"
  const Yes: string := "YES"

  /** A cached enablement, once computed, agrees with the model path (which never changes). */
  predicate Valid(d: Detector) {
    d.enablingChecked ==> d.enabledCache == (|d.pathToModel| > 0)
  }

  /** A freshly constructed detector: nothing checked, no request, nothing loaded. */
  function New(topoName: string, pathToModel: string, isAsync: bool): (d: Detector)
    ensures d.topoName == topoName && d.pathToModel == pathToModel && d.isAsync == isAsync
    ensures Valid(d) && !d.enablingChecked
    ensures !d.hasRequest && d.net == None && d.plugin == None && d.calls == []
  {
    Detector(topoName, pathToModel, isAsync, false, false, false, None, None, [])
  }

  /** The value `enabled()` returns for `d`. */
  predicate IsEnabled(d: Detector) {
    if d.enablingChecked then d.enabledCache else |d.pathToModel| > 0
  }

  /**
   `enabled()`: the answer, and the detector with the answer cached. The first
   call decides from the model path; later calls return the cached value.
   */
  function Enabled(d: Detector): (r: (bool, Detector))
    ensures r.1 == d.(enablingChecked := true, enabledCache := r.0)
    ensures d.enablingChecked ==> r == (d.enabledCache, d)
    ensures !d.enablingChecked ==> (r.0 <==> |d.pathToModel| > 0)
    ensures Valid(d) ==> Valid(r.1) && (r.0 <==> |d.pathToModel| > 0)
  {
    if d.enablingChecked then (d.enabledCache, d)
    else
      var e := |d.pathToModel| > 0;
      (e, d.(enablingChecked := true, enabledCache := e))
  }

  /** `d` with enablement checked: every guarded operation starts from this. */
  function Checked(d: Detector): Detector {
    Enabled(d).1
  }

  function Call(d: Detector, c: BackendCall): Detector {
    d.(calls := d.calls + [c])
  }

  /**
   Number of asynchronous executions started and not yet waited for, read off
   the call log: a start adds one, a wait for the result clears them all.
   */
  function InFlight(calls: seq<BackendCall>): nat
  {
    if calls == [] then 0
    else
      var prefix := calls[..|calls| - 1];
      match calls[|calls| - 1]
      case StartAsync => InFlight(prefix) + 1
      case WaitResultReady => 0
      case _ => InFlight(prefix)
  }

  /** `submitRequest()`: start the request, asynchronously or not, if enabled and a request exists. */
  function Submit(d: Detector): (r: Detector)
    ensures Valid(d) ==> Valid(r)
    ensures r.(calls := d.calls) == Checked(d)
    ensures |r.calls| == |d.calls| + 1 <==> IsEnabled(d) && d.hasRequest
    ensures |r.calls| != |d.calls| + 1 ==> r.calls == d.calls
    ensures |r.calls| == |d.calls| + 1 ==>
              r.calls[..|d.calls|] == d.calls && r.calls[|d.calls|] == (if d.isAsync then StartAsync else Infer)
  {
    var (en, c) := Enabled(d);
    if !en || !c.hasRequest then c
    else if c.isAsync then Call(c, StartAsync)
    else Call(c, Infer)
  }

  /** `wait()`: block until the result is ready; only for an enabled, asynchronous detector with a request. */
  function Wait(d: Detector): (r: Detector)
    ensures Valid(d) ==> Valid(r)
    ensures r.(calls := d.calls) == Checked(d)
    ensures IsEnabled(d) && d.hasRequest && d.isAsync ==> r.calls == d.calls + [WaitResultReady]
    ensures !(IsEnabled(d) && d.hasRequest && d.isAsync) ==> r.calls == d.calls
  {
    var (en, c) := Enabled(d);
    if !en || !c.hasRequest || !c.isAsync then c
    else Call(c, WaitResultReady)
  }

  /**
   `status()`: `GeneralError` unless the detector is enabled, has a request and
   is asynchronous; in that case the backend's answer to a status-only poll.
   */
  function Status(d: Detector, poll: StatusCode): (r: (StatusCode, Detector))
    ensures Valid(d) ==> Valid(r.1)
    ensures r.1.(calls := d.calls) == Checked(d)
    ensures IsEnabled(d) && d.hasRequest && d.isAsync ==> r == (poll, Call(Checked(d), WaitStatusOnly))
    ensures !(IsEnabled(d) && d.hasRequest && d.isAsync) ==> r == (GeneralError, Checked(d))
  {
    var (en, c) := Enabled(d);
    if !en || !c.hasRequest || !c.isAsync then (GeneralError, c)
    else (poll, Call(c, WaitStatusOnly))
  }

  /**
   `printPerformanceCounts()`: reads the per-layer counters of the request when
   enabled. The source dereferences the request without a check, so an enabled
   detector must have one.
   */
  function PrintPerformanceCounts(d: Detector): (r: Detector)
    requires IsEnabled(d) ==> d.hasRequest
    ensures r.(calls := d.calls) == Checked(d)
    ensures !IsEnabled(d) ==> r == Checked(d)
    ensures IsEnabled(d) ==> r.calls == d.calls + [GetPerformanceCounts]
  {
    var (en, c) := Enabled(d);
    if !en then c else Call(c, GetPerformanceCounts)
  }

  /** The plugin configuration `LoadDetector::into` passes: the dynamic-batch key only when asked for. */
  function LoadConfig(enableDynamicBatch: bool): (config: map<string, string>)
    ensures KeyDynBatchEnabled in config <==> enableDynamicBatch
    ensures forall k :: k in config ==> k == KeyDynBatchEnabled && config[k] == Yes
  {
    if enableDynamicBatch then map[KeyDynBatchEnabled := Yes] else map[]
  }

  /**
   `LoadDetector::into`: a disabled detector is left as it is; an enabled one
   has `read` evaluated (its failure propagates) and is loaded onto the plugin.
   `read` is the outcome of the detector's own `read()`, which is consulted only
   when the detector is enabled.
   */
  function Into<E>(d: Detector, plg: PluginId, enableDynamicBatch: bool, read: Result<NetworkInfo, E>): (r: Result<Detector, E>)
    ensures Valid(d) ==> r.Success? ==> Valid(r.value)
    ensures !IsEnabled(d) ==> r == Success(Checked(d))
    ensures IsEnabled(d) && read.Failure? ==> r == Failure(read.error)
    ensures IsEnabled(d) && read.Success? ==>
              && r.Success?
              && r.value.net == Some(ExecutableNetwork(read.value, LoadConfig(enableDynamicBatch)))
              && r.value.plugin == Some(plg)
              && r.value.calls == d.calls + [LoadNetwork(plg, read.value, LoadConfig(enableDynamicBatch))]
              && r.value.(net := d.net, plugin := d.plugin, calls := d.calls) == Checked(d)
  {
    var (en, c) := Enabled(d);
    if !en then Success(c)
    else match read
      case Failure(e) => Failure(e)
      case Success(network) =>
        var config := LoadConfig(enableDynamicBatch);
        Success(Call(c, LoadNetwork(plg, network, config)).(net := Some(ExecutableNetwork(network, config)), plugin := Some(plg)))
  }

  // ---------------------------------------------------------------------------
  // Properties relating several calls

  /** Once enablement has been asked for, asking again changes nothing and gives the same answer. */
  lemma EnabledIsCached(d: Detector)
    ensures Enabled(Checked(d)) == (Enabled(d).0, Checked(d))
  {
  }

  /** For a valid detector `enabled()` is exactly "the model path is non-empty", before and after caching. */
  lemma EnabledIffModelPath(d: Detector)
    requires Valid(d)
    ensures IsEnabled(d) <==> |d.pathToModel| > 0
    ensures IsEnabled(Checked(d)) <==> |d.pathToModel| > 0
  {
  }

  /** `status()` reports `Ok` exactly when all three guards pass and the backend reports `Ok`. */
  lemma StatusOkIff(d: Detector, poll: StatusCode)
    ensures Status(d, poll).0 == Ok <==> IsEnabled(d) && d.hasRequest && d.isAsync && poll == Ok
  {
  }

  /** A synchronous detector never reports `Ok` and never polls the backend. */
  lemma SyncStatusNeverOk(d: Detector, poll: StatusCode)
    requires !d.isAsync
    ensures Status(d, poll).0 == GeneralError
    ensures Status(d, poll).1.calls == d.calls
  {
  }

  /** Appending a call that neither starts nor waits leaves the in-flight count alone. */
  lemma InFlightOther(calls: seq<BackendCall>, c: BackendCall)
    requires c != StartAsync && c != WaitResultReady
    ensures InFlight(calls + [c]) == InFlight(calls)
  {
    assert (calls + [c])[..|calls|] == calls;
  }

  /** Waiting for the result leaves nothing outstanding. */
  lemma InFlightAfterWait(calls: seq<BackendCall>)
    ensures InFlight(calls + [WaitResultReady]) == 0
  {
    assert (calls + [WaitResultReady])[|calls|] == WaitResultReady;
  }

  /** Starting an asynchronous execution adds exactly one outstanding execution. */
  lemma InFlightAfterStart(calls: seq<BackendCall>)
    ensures InFlight(calls + [StartAsync]) == InFlight(calls) + 1
  {
    assert (calls + [StartAsync])[..|calls|] == calls;
  }

  /**
   Waiting for a result and then submitting again leaves at most one
   asynchronous execution outstanding, whatever was outstanding before.
   */
  lemma WaitThenSubmitKeepsOneInFlight(d: Detector)
    requires IsEnabled(d) && d.hasRequest && d.isAsync
    ensures InFlight(Wait(d).calls) == 0
    ensures InFlight(Submit(Wait(d)).calls) == 1
  {
    var w := Wait(d);
    assert w.calls == d.calls + [WaitResultReady];
    assert w.calls[..|w.calls| - 1] == d.calls;
    var s := Submit(w);
    assert s.calls == w.calls + [StartAsync];
    assert s.calls[..|s.calls| - 1] == w.calls;
  }
}

=== FILE: cpp_numerics.dfy ===
/**
 The two C++ integer conversions the program relies on, written out because
 Dafny's own `/` on int is Euclidean and reals have no implicit conversion.
 */
module CppNumerics {

  /** Floating-point to `int` conversion (assignment or `static_cast<int>`): truncation toward zero. */
  function Trunc(r: real): (i: int)
    ensures 0.0 <= r ==> 0 <= i && i as real <= r < i as real + 1.0
    ensures r < 0.0 ==> i <= 0 && i as real - 1.0 < r <= i as real
  {
    if r >= 0.0 then r.Floor else -((-r).Floor)
  }

  /** Built-in `a / 2` on `int`: half, rounded toward zero. */
  function Half(a: int): (h: int)
    ensures 0 <= a ==> 0 <= a - 2 * h <= 1
    ensures a < 0 ==> -1 <= a - 2 * h <= 0
  {
    if a >= 0 then a / 2 else -((-a) / 2)
  }

  function Abs(r: real): (m: real)
    ensures 0.0 <= m && (m == r || m == -r)
  {
    if r < 0.0 then -r else r
  }

  /** `MAX` and `std::max` on floating-point values. */
  function Max(a: real, b: real): (m: real)
    ensures a <= m && b <= m && (m == a || m == b)
  {
    if a < b then b else a
  }

  function Min(a: real, b: real): (m: real)
    ensures m <= a && m <= b && (m == a || m == b)
  {
    if a < b then a else b
  }

  /** `std::max` on `int`. */
  function MaxInt(a: int, b: int): (m: int)
    ensures a <= m && b <= m && (m == a || m == b)
  {
    if a < b then b else a
  }

  /** The result of a float-to-int conversion is less than one unit away from the value converted. */
  lemma TruncWithinOne(r: real)
    ensures -1.0 < Trunc(r) as real - r < 1.0
  {
  }

  /** Truncating a value that is at least an integer `n` never drops below `n`. */
  lemma TruncAtLeast(r: real, n: int)
    requires 0 <= n && n as real <= r
    ensures n <= Trunc(r)
  {
  }
}

=== FILE: cv.dfy ===
/** The OpenCV value types the program passes around, reduced to plain values. */
module Cv {

  /** `cv::Point2f`; single-precision coordinates are modelled as reals. */
  datatype Point = Point(x: real, y: real)

  /** `cv::Rect`: integer top-left corner and integer size. */
  datatype Rect = Rect(x: int, y: int, width: int, height: int)

  /**
   `cv::Mat`, reduced to an identity token and its size. `Empty` is the
   default-constructed matrix (what `cv::Mat()` and a failed read leave behind).
   */
  datatype Mat = Empty | Image(id: nat, cols: nat, rows: nat) {

    /** `mat.cols` */
    function Cols(): nat {
      if Empty? then 0 else cols
    }

    /** `mat.rows` */
    function Rows(): nat {
      if Empty? then 0 else rows
    }
  }
}

=== FILE: detection_output.dfy ===
/**
 Turning the face detector's raw output into face boxes (face_detector.cpp):
 the flat buffer of 7-wide proposal records, the confidence threshold, the
 conversion of normalised corners to pixels, the square-and-enlarge rule and
 the end-of-list sentinel; plus the label-list repair and output-shape checks
 applied when the network is read.
 */
module DetectionOutput {
  import opened Results
  import opened Cv
  import opened CppNumerics

  /** Width of one proposal record: [image_id, label, confidence, x_min, y_min, x_max, y_max]. */
  const ObjectSize: nat := 7

  /** `bb_enlarge_coefficient` */
  const BbEnlargeCoefficient: real := 1.2

  /** The label the detector prepends when the label file omits the background class. */
  const FakeLabel: string := "fake"

  datatype Record = Record(
    imageId: real,
    classId: real,
    confidence: real,
    xMin: real,
    yMin: real,
    xMax: real,
    yMax: real)

  /** `FaceDetector::Result` */
  datatype Detection = Detection(classId: int, confidence: real, location: Rect)

  /**
   Where record `i` starts in the flat buffer: `i * ObjectSize`, with the width
   written as a literal so that offsets stay linear arithmetic.
   */
  function Offset(i: nat): nat {
    7 * i
  }

  /** Ties the literal 7 in `Offset` to the record width `ObjectSize`. */
  lemma OffsetIsMultipleOfObjectSize(i: nat)
    ensures Offset(i) == i * ObjectSize
  {
  }

  /** The buffer holds at least `count` whole records. */
  predicate HoldsRecords(buffer: seq<real>, count: nat) {
    Offset(count) <= |buffer|
  }

  /** The `i`-th record of the flat output buffer. */
  function RecordAt(buffer: seq<real>, i: nat): Record
    requires HoldsRecords(buffer, i + 1)
  {
    var o := Offset(i);
    Record(buffer[o], buffer[o + 1], buffer[o + 2], buffer[o + 3], buffer[o + 4], buffer[o + 5], buffer[o + 6])
  }

  /** The first `count` records of the flat output buffer, the only ones the scan may look at. */
  function Records(buffer: seq<real>, count: nat): (rs: seq<Record>)
    requires HoldsRecords(buffer, count)
    ensures |rs| == count
    ensures forall i :: 0 <= i < count ==> rs[i] == RecordAt(buffer, i)
  {
    seq(count, i requires 0 <= i < count => RecordAt(buffer, i))
  }

  /**
   Normalised corners to a pixel rectangle. The corner is truncated into the
   integer `cv::Rect`, and the size is the far corner minus that truncated corner,
   truncated again.
   */
  function PixelBox(rec: Record, width: real, height: real): (b: Rect)
    ensures b.x == Trunc(rec.xMin * width) && b.y == Trunc(rec.yMin * height)
    ensures b.x + b.width == Trunc(rec.xMax * width) || b.x + b.width == Trunc(rec.xMax * width) + 1
            || b.x + b.width == Trunc(rec.xMax * width) - 1
    ensures b.y + b.height == Trunc(rec.yMax * height) || b.y + b.height == Trunc(rec.yMax * height) + 1
            || b.y + b.height == Trunc(rec.yMax * height) - 1
  {
    var x := Trunc(rec.xMin * width);
    var y := Trunc(rec.yMin * height);
    Rect(x, y, Trunc(rec.xMax * width - x as real), Trunc(rec.yMax * height - y as real))
  }

  /** The integer centre the square-and-enlarge rule keeps: corner plus half the size, rounded toward zero. */
  function Centre(b: Rect): (int, int) {
    (b.x + Half(b.width), b.y + Half(b.height))
  }

  /** The square of side `side` on the integer centre of `b`. */
  function CentredSquare(b: Rect, side: int): (r: Rect)
    ensures r.width == r.height == side
    ensures Centre(r) == Centre(b)
  {
    Rect(b.x + Half(b.width) - Half(side), b.y + Half(b.height) - Half(side), side, side)
  }

  /**
   `bb_enlarge_coefficient * m` converted to `int`. The coefficient is written
   as the literal 1.2 (`BbEnlargeCoefficient`) so that the product stays linear.
   */
  function Enlarged(m: int): int {
    Trunc(1.2 * m as real)
  }

  /** Ties the literal 1.2 in `Enlarged` to the coefficient `BbEnlargeCoefficient`. */
  lemma EnlargedUsesCoefficient(m: int)
    ensures Enlarged(m) == Trunc(BbEnlargeCoefficient * m as real)
  {
  }

  /**
   Square-and-enlarge: a square whose side is the enlarged larger side, on the
   same integer centre.
   */
  function SquareEnlarge(b: Rect): (r: Rect)
    ensures r.width == r.height == Enlarged(MaxInt(b.width, b.height))
    ensures Centre(r) == Centre(b)
  {
    CentredSquare(b, Enlarged(MaxInt(b.width, b.height)))
  }

  /** The detection an above-threshold record becomes. */
  function ToDetection(rec: Record, width: real, height: real): (d: Detection)
    ensures d.confidence == rec.confidence
    ensures d.classId == Trunc(rec.classId)
    ensures d.location.width == d.location.height
    ensures var b := PixelBox(rec, width, height);
            d.location.width == Enlarged(MaxInt(b.width, b.height))
    ensures Centre(d.location) == Centre(PixelBox(rec, width, height))
  {
    Detection(Trunc(rec.classId), rec.confidence, SquareEnlarge(PixelBox(rec, width, height)))
  }

  /**
   The scan of `fetchResults`: records at or below the threshold are skipped;
   an above-threshold record with a negative image id ends the scan without
   being added; every other record becomes a detection, in order.
   */
  function Parse(rs: seq<Record>, threshold: real, width: real, height: real): (ds: seq<Detection>)
    ensures |ds| <= |rs|
    ensures forall k :: 0 <= k < |ds| ==> ds[k].confidence > threshold
    ensures forall k :: 0 <= k < |ds| ==> ds[k].location.width == ds[k].location.height
  {
    if rs == [] then []
    else if rs[0].confidence <= threshold then Parse(rs[1..], threshold, width, height)
    else if rs[0].imageId < 0.0 then []
    else [ToDetection(rs[0], width, height)] + Parse(rs[1..], threshold, width, height)
  }

  // ---------------------------------------------------------------------------
  // Reference description of the scan

  /** The record that passes the threshold and carries the end-of-list sentinel. */
  predicate StopsScan(r: Record, threshold: real) {
    r.confidence > threshold && r.imageId < 0.0
  }

  /** Index of the first record that stops the scan, or the number of records if none does. */
  function ScanEnd(rs: seq<Record>, threshold: real): (e: nat)
    ensures e <= |rs|
    ensures forall i :: 0 <= i < e ==> !StopsScan(rs[i], threshold)
    ensures e < |rs| ==> StopsScan(rs[e], threshold)
  {
    if rs == [] then 0
    else if StopsScan(rs[0], threshold) then 0
    else 1 + ScanEnd(rs[1..], threshold)
  }

  /** The records above the threshold, in order. */
  function Above(rs: seq<Record>, threshold: real): (a: seq<Record>)
    ensures forall r :: r in a <==> r in rs && r.confidence > threshold
  {
    if rs == [] then []
    else if rs[0].confidence > threshold then [rs[0]] + Above(rs[1..], threshold)
    else Above(rs[1..], threshold)
  }

  function ToDetections(rs: seq<Record>, width: real, height: real): (ds: seq<Detection>)
    ensures |ds| == |rs|
    ensures forall i :: 0 <= i < |rs| ==> ds[i] == ToDetection(rs[i], width, height)
  {
    seq(|rs|, i requires 0 <= i < |rs| => ToDetection(rs[i], width, height))
  }

  /**
   The scan's output is exactly the above-threshold records that come before the
   first above-threshold sentinel, converted in order.
   */
  lemma {:induction false} ParseIsFilteredPrefix(rs: seq<Record>, threshold: real, width: real, height: real)
    ensures Parse(rs, threshold, width, height)
         == ToDetections(Above(rs[..ScanEnd(rs, threshold)], threshold), width, height)
  {
    if rs == [] {
    } else {
      var tail := rs[1..];
      ParseIsFilteredPrefix(tail, threshold, width, height);
      var e := ScanEnd(tail, threshold);
      if StopsScan(rs[0], threshold) {
        assert rs[..0] == [];
      } else {
        assert rs[..1 + e] == [rs[0]] + tail[..e];
        assert ([rs[0]] + tail[..e])[1..] == tail[..e];
        if rs[0].confidence <= threshold {
          assert Above(rs[..1 + e], threshold) == Above(tail[..e], threshold);
        } else {
          var above := Above(tail[..e], threshold);
          assert Above(rs[..1 + e], threshold) == [rs[0]] + above;
          ToDetectionsCons(rs[0], above, width, height);
        }
      }
    }
  }

  lemma ToDetectionsCons(r: Record, rest: seq<Record>, width: real, height: real)
    ensures ToDetections([r] + rest, width, height) == [ToDetection(r, width, height)] + ToDetections(rest, width, height)
  {
    var lhs := ToDetections([r] + rest, width, height);
    var rhs := [ToDetection(r, width, height)] + ToDetections(rest, width, height);
    assert |lhs| == |rhs|;
    forall i | 0 <= i < |lhs| ensures lhs[i] == rhs[i] {
      if i > 0 {
        assert ([r] + rest)[i] == rest[i - 1];
      }
    }
  }

  /** Only records before the first above-threshold sentinel can contribute a detection. */
  lemma RecordsAfterSentinelIgnored(rs: seq<Record>, threshold: real, width: real, height: real, i: nat)
    requires i < |rs| && StopsScan(rs[i], threshold)
    ensures |Parse(rs, threshold, width, height)| <= i
  {
    ParseIsFilteredPrefix(rs, threshold, width, height);
    var e := ScanEnd(rs, threshold);
    assert e <= i;
    AboveShorter(rs[..e], threshold);
  }

  lemma {:induction false} AboveShorter(rs: seq<Record>, threshold: real)
    ensures |Above(rs, threshold)| <= |rs|
  {
    if rs != [] {
      AboveShorter(rs[1..], threshold);
    }
  }

  /**
   The threshold test comes before the sentinel test: a record at or below the
   threshold is skipped whatever its image id, so even a sentinel there does not
   end the scan; an above-threshold sentinel ends it with nothing after it.
   */
  lemma ThresholdTestComesFirst(r: Record, rest: seq<Record>, threshold: real, width: real, height: real)
    ensures r.confidence <= threshold ==> Parse([r] + rest, threshold, width, height) == Parse(rest, threshold, width, height)
    ensures StopsScan(r, threshold) ==> Parse([r] + rest, threshold, width, height) == []
  {
    assert ([r] + rest)[0] == r;
    assert ([r] + rest)[1..] == rest;
  }

  /** Only the first `count` records of the buffer are ever examined: what lies beyond them does not change the scan. */
  lemma ParseIgnoresBufferTail(buffer: seq<real>, count: nat, threshold: real, width: real, height: real)
    requires HoldsRecords(buffer, count)
    ensures HoldsRecords(buffer[..Offset(count)], count)
    ensures Parse(Records(buffer[..Offset(count)], count), threshold, width, height)
         == Parse(Records(buffer, count), threshold, width, height)
  {
    assert Records(buffer[..Offset(count)], count) == Records(buffer, count);
  }

  /** For a box of non-negative size, the enlarged square contains the original box. */
  lemma SquareEnlargeContains(b: Rect)
    requires 0 <= b.width && 0 <= b.height
    ensures var r := SquareEnlarge(b);
            && r.x <= b.x && b.x + b.width <= r.x + r.width
            && r.y <= b.y && b.y + b.height <= r.y + r.height
  {
    var m := MaxInt(b.width, b.height);
    EnlargedSideCovers(m);
    CentredSquareCovers(b, Enlarged(m));
  }

  /** A square at least as large as both sides of a box, on the box's centre, contains the box. */
  lemma CentredSquareCovers(b: Rect, side: int)
    requires 0 <= b.width <= side && 0 <= b.height <= side
    ensures var r := CentredSquare(b, side);
            && r.x <= b.x && b.x + b.width <= r.x + r.width
            && r.y <= b.y && b.y + b.height <= r.y + r.height
  {
    CentredSpanCovers(b.x, b.width, side);
    CentredSpanCovers(b.y, b.height, side);
  }

  /** Along one axis: a span of length `side >= w` centred where `[x, x + w)` is centred covers it. */
  lemma CentredSpanCovers(x: int, w: int, side: int)
    requires 0 <= w <= side
    ensures x + Half(w) - Half(side) <= x
    ensures x + w <= x + Half(w) - Half(side) + side
  {
    HalfMonotone(w, side);
  }

  /** Enlarging a non-negative side never shrinks it. */
  lemma EnlargedSideCovers(m: int)
    requires 0 <= m
    ensures m <= Enlarged(m)
  {
    TruncAtLeast(1.2 * m as real, m);
  }

  /** For `0 <= a <= b`: both halves of `a` (rounded down and up) are at most those of `b`. */
  lemma HalfMonotone(a: int, b: int)
    requires 0 <= a <= b
    ensures Half(a) <= Half(b)
    ensures a - Half(a) <= b - Half(b)
  {
  }

  // ---------------------------------------------------------------------------
  // Reading the network: label list and output shape

  datatype LoadError =
    | WrongInputCount(inputs: nat)
    | WrongOutputCount(outputs: nat)
    | WrongOutputLayerType(layerType: string)
    | MissingNumClasses
    | WrongObjectSize(objectSize: nat)
    | WrongRank(rank: nat)

  /**
   Label repair: a list of exactly `numClasses` labels is kept; a list one short
   (the network's implicit background class) gets a placeholder in front; any
   other length is discarded, so that raw class ids are shown instead.
   */
  function RepairLabels(labels: seq<string>, numClasses: int): (r: seq<string>)
    ensures r == [] || |r| == numClasses
    ensures |labels| == numClasses ==> r == labels
    ensures |labels| + 1 == numClasses ==> r == [FakeLabel] + labels
    ensures |labels| != numClasses && |labels| + 1 != numClasses ==> r == []
  {
    if |labels| == numClasses then labels
    else if |labels| == numClasses - 1 then [FakeLabel] + labels
    else []
  }

  /**
   After repair every class id the network can report (`0 <= c < numClasses`)
   names a label, or the list is empty; in the prepended case class `c > 0`
   names the file's label `c - 1`.
   */
  lemma RepairedLabelsCoverClasses(labels: seq<string>, numClasses: int, c: int)
    requires 0 < c < numClasses && |labels| + 1 == numClasses
    ensures RepairLabels(labels, numClasses)[c] == labels[c - 1]
    ensures RepairLabels(labels, numClasses)[0] == FakeLabel
  {
  }

  /** `maxProposalCount` and `objectSize` as read from the output dimensions. */
  datatype OutputShape = OutputShape(maxProposalCount: nat, objectSize: nat)

  /**
   The output-shape checks in the order they are written: the third and fourth
   dimensions are read before the rank is tested, so the code itself needs at
   least four dimensions; the fourth-dimension test then comes before the rank test.
   */
  function CheckOutputDimsAsWritten(dims: seq<nat>): (r: Result<OutputShape, LoadError>)
    requires |dims| >= 4
    ensures r.Success? <==> |dims| == 4 && dims[3] == ObjectSize
    ensures r.Success? ==> r.value == OutputShape(dims[2], ObjectSize)
    ensures dims[3] != ObjectSize ==> r == Failure(WrongObjectSize(dims[3]))
  {
    var maxProposalCount := dims[2];
    var objectSize := dims[3];
    if objectSize != ObjectSize then Failure(WrongObjectSize(objectSize))
    else if |dims| != 4 then Failure(WrongRank(|dims|))
    else Success(OutputShape(maxProposalCount, objectSize))
  }

  /**
   The output-shape checks with a rank below four rejected before any dimension
   is read; on every output the written order can handle, the outcome is the same.
   */
  function CheckOutputDims(dims: seq<nat>): (r: Result<OutputShape, LoadError>)
    ensures r.Success? <==> |dims| == 4 && dims[3] == ObjectSize
    ensures r.Success? ==> r.value == OutputShape(dims[2], ObjectSize)
    ensures |dims| < 4 ==> r == Failure(WrongRank(|dims|))
    ensures |dims| >= 4 ==> r == CheckOutputDimsAsWritten(dims)
  {
    if |dims| < 4 then Failure(WrongRank(|dims|))
    else CheckOutputDimsAsWritten(dims)
  }

  /**
   A rank-3 output `[1, 1, 200]` is outside what the written checks can index
   (they read dimension 3), while the corrected checks reject it by its rank.
   */
  lemma RankThreeOutputIndexedOutOfBounds()
    ensures !(|[1, 1, 200]| >= 4)
    ensures CheckOutputDims([1, 1, 200]) == Failure(WrongRank(3))
  {
  }
}

=== FILE: face_detector.dfy ===
/**
 The face detector's own bookkeeping (face_detector.cpp) on top of the base
 lifecycle: `enqueue` prepares one frame, `submitRequest` starts the request
 only when a frame is waiting, and `fetchResults` parses the output once per
 submitted request. `read` checks the network and repairs the label list.
 */
module FaceDetectors {
  import opened Results
  import opened Cv
  import opened BaseDetectors
  import opened DetectionOutput

  datatype FaceDetector = FaceDetector(
    base: Detector,
    detectionThreshold: real,
    maxProposalCount: nat,
    enquedFrames: int,
    width: real,
    height: real,
    resultsFetched: bool,
    labels: seq<string>,
    results: seq<Detection>)

  /**
   A freshly constructed face detector. `maxProposalCount` is only assigned by
   `read`; it starts at 0 here so that nothing is scanned before a network is read.
   */
  function New(pathToModel: string, isAsync: bool, detectionThreshold: real): (fd: FaceDetector)
    ensures fd.base == BaseDetectors.New("Face Detection", pathToModel, isAsync)
    ensures fd.detectionThreshold == detectionThreshold
    ensures fd.maxProposalCount == 0 && fd.width == 0.0 && fd.height == 0.0
    ensures Valid(fd.base) && !fd.base.hasRequest && fd.base.calls == []
    ensures fd.enquedFrames == 0 && !fd.resultsFetched && fd.results == [] && fd.labels == []
  {
    FaceDetector(BaseDetectors.New("Face Detection", pathToModel, isAsync),
                 detectionThreshold, 0, 0, 0.0, 0.0, false, [], [])
  }

  /**
   `read()`: the network must have one input and one output, the output layer
   must be a `DetectionOutput` with a `num_classes` attribute, and the output
   must be 4-dimensional with records of 7 values. The labels read from the
   label file are appended to the current list and then repaired against
   `num_classes`.
   */
  function Read(fd: FaceDetector, info: NetworkInfo, labelFile: seq<string>): (r: Result<FaceDetector, LoadError>)
    ensures r.Success? <==>
              && info.inputCount == 1
              && info.outputCount == 1
              && info.outputLayerType == "DetectionOutput"
              && info.numClasses.Some?
              && |info.outputDims| == 4 && info.outputDims[3] == ObjectSize
    ensures r.Success? ==>
              && r.value.maxProposalCount == info.outputDims[2]
              && r.value.labels == RepairLabels(fd.labels + labelFile, info.numClasses.value)
              && r.value.(maxProposalCount := fd.maxProposalCount, labels := fd.labels) == fd
    ensures info.inputCount != 1 ==> r == Failure(WrongInputCount(info.inputCount))
    ensures info.inputCount == 1 && info.outputCount != 1 ==> r == Failure(WrongOutputCount(info.outputCount))
  {
    if info.inputCount != 1 then Failure(WrongInputCount(info.inputCount))
    else if info.outputCount != 1 then Failure(WrongOutputCount(info.outputCount))
    else if info.outputLayerType != "DetectionOutput" then Failure(WrongOutputLayerType(info.outputLayerType))
    else if info.numClasses.None? then Failure(MissingNumClasses)
    else
      var labels := RepairLabels(fd.labels + labelFile, info.numClasses.value);
      match CheckOutputDims(info.outputDims)
      case Failure(e) => Failure(e)
      case Success(shape) => Success(fd.(labels := labels, maxProposalCount := shape.maxProposalCount))
  }

  /**
   `LoadDetector(faceDetector).into(plugin, dynamicBatch)`: a disabled detector
   is left as it is (only its enablement is cached); an enabled one is read,
   and if the network is accepted it is loaded onto the plugin.
   */
  function LoadInto(fd: FaceDetector, plg: PluginId, enableDynamicBatch: bool, info: NetworkInfo, labelFile: seq<string>)
    : (r: Result<FaceDetector, LoadError>)
    ensures !IsEnabled(fd.base) ==> r == Success(fd.(base := Checked(fd.base)))
    ensures IsEnabled(fd.base) ==> (r.Success? <==> Read(fd, info, labelFile).Success?)
    ensures IsEnabled(fd.base) && r.Success? ==>
              && r.value.base.net == Some(ExecutableNetwork(info, LoadConfig(enableDynamicBatch)))
              && r.value.base.plugin == Some(plg)
              && r.value.maxProposalCount == info.outputDims[2]
    ensures Valid(fd.base) && r.Success? ==> Valid(r.value.base)
  {
    var read := Read(fd, info, labelFile);
    var network: Result<NetworkInfo, LoadError> := if read.Success? then Success(info) else Failure(read.error);
    match BaseDetectors.Into(fd.base, plg, enableDynamicBatch, network)
    case Failure(e) => Failure(e)
    case Success(b) =>
      // read() only ran (and only changed the face detector) when the detector is enabled
      var readFd := if IsEnabled(fd.base) && read.Success? then read.value else fd;
      Success(readFd.(base := b))
  }

  /**
   `enqueue(frame)`: on an enabled detector, create the request if there is
   none, record the frame's size, hand the frame to the request, and mark one
   frame as waiting.
   */
  function Enqueue(fd: FaceDetector, frame: Mat): (r: FaceDetector)
    ensures Valid(fd.base) ==> Valid(r.base)
    ensures !IsEnabled(fd.base) ==> r == fd.(base := Checked(fd.base))
    ensures IsEnabled(fd.base) ==>
              && r.enquedFrames == 1
              && r.width == frame.Cols() as real && r.height == frame.Rows() as real
              && r.base.hasRequest
              && r.base.calls == fd.base.calls + (if fd.base.hasRequest then [] else [CreateInferRequest]) + [SetInput(frame)]
              && r.base.(hasRequest := fd.base.hasRequest, calls := fd.base.calls) == Checked(fd.base)
              && r.(base := fd.base, enquedFrames := fd.enquedFrames, width := fd.width, height := fd.height) == fd
  {
    var (en, b) := Enabled(fd.base);
    if !en then fd.(base := b)
    else
      var b1 := if b.hasRequest then b else Call(b, CreateInferRequest).(hasRequest := true);
      fd.(base := Call(b1, SetInput(frame)), width := frame.Cols() as real, height := frame.Rows() as real, enquedFrames := 1)
  }

  /**
   `submitRequest()`: without a waiting frame nothing happens at all (enablement
   is not even consulted); otherwise the waiting mark and the previous results
   are reset before the base detector starts the request.
   */
  function SubmitRequest(fd: FaceDetector): (r: FaceDetector)
    ensures Valid(fd.base) ==> Valid(r.base)
    ensures fd.enquedFrames == 0 ==> r == fd
    ensures fd.enquedFrames != 0 ==>
              && r.enquedFrames == 0 && !r.resultsFetched && r.results == []
              && r.base == BaseDetectors.Submit(fd.base)
              && r.(base := fd.base, enquedFrames := fd.enquedFrames, resultsFetched := fd.resultsFetched, results := fd.results) == fd
  {
    if fd.enquedFrames == 0 then fd
    else fd.(enquedFrames := 0, resultsFetched := false, results := [], base := BaseDetectors.Submit(fd.base))
  }

  /** The precondition `fetchResults` places on its caller: it reads the request's output without a null check. */
  predicate CanFetch(fd: FaceDetector, output: seq<real>) {
    && HoldsRecords(output, fd.maxProposalCount)
    && (IsEnabled(fd.base) && !fd.resultsFetched ==> fd.base.hasRequest)
  }

  /**
   `fetchResults()`: on an enabled detector the previous results are dropped;
   the output is parsed only on the first fetch after a submit, so a repeated
   fetch leaves the results empty. `output` is the request's output buffer.
   */
  function FetchResults(fd: FaceDetector, output: seq<real>): (r: FaceDetector)
    requires CanFetch(fd, output)
    ensures Valid(fd.base) ==> Valid(r.base)
    ensures !IsEnabled(fd.base) ==> r == fd.(base := Checked(fd.base))
    ensures IsEnabled(fd.base) ==> r.resultsFetched
    ensures IsEnabled(fd.base) ==> forall k :: 0 <= k < |r.results| ==> r.results[k].confidence > fd.detectionThreshold
    ensures IsEnabled(fd.base) ==> |r.results| <= fd.maxProposalCount
    ensures IsEnabled(fd.base) ==> forall k :: 0 <= k < |r.results| ==> r.results[k].location.width == r.results[k].location.height
    ensures IsEnabled(fd.base) && fd.resultsFetched ==> r == fd.(base := Checked(fd.base), results := [])
    ensures IsEnabled(fd.base) && !fd.resultsFetched ==>
              && r.results == Parse(Records(output, fd.maxProposalCount), fd.detectionThreshold, fd.width, fd.height)
              && r.base == Call(Checked(fd.base), GetOutput)
              && r.(base := fd.base, resultsFetched := fd.resultsFetched, results := fd.results) == fd
  {
    var (en, b) := Enabled(fd.base);
    if !en then fd.(base := b)
    else if fd.resultsFetched then fd.(base := b, results := [])
    else
      var rs := Records(output, fd.maxProposalCount);
      fd.(base := Call(b, GetOutput), resultsFetched := true,
          results := Parse(rs, fd.detectionThreshold, fd.width, fd.height))
  }

  /**
   `status()` as inherited from the base detector: `GeneralError` without a
   backend call unless the three guards pass, otherwise the backend's answer to
   one status-only poll.
   */
  function Status(fd: FaceDetector, poll: StatusCode): (r: (StatusCode, FaceDetector))
    ensures Valid(fd.base) ==> Valid(r.1.base)
    ensures r.0 == Ok <==> IsEnabled(fd.base) && fd.base.hasRequest && fd.base.isAsync && poll == Ok
    ensures IsEnabled(fd.base) && fd.base.hasRequest && fd.base.isAsync ==>
              r.0 == poll && r.1.base.calls == fd.base.calls + [WaitStatusOnly]
    ensures !(IsEnabled(fd.base) && fd.base.hasRequest && fd.base.isAsync) ==>
              r.0 == GeneralError && r.1.base.calls == fd.base.calls
    ensures r.1.base.(calls := fd.base.calls) == Checked(fd.base)
    ensures r.1.(base := fd.base) == fd
    ensures r.1.base.hasRequest == fd.base.hasRequest && r.1.base.isAsync == fd.base.isAsync
    ensures IsEnabled(r.1.base) == IsEnabled(fd.base)
  {
    var (code, b) := BaseDetectors.Status(fd.base, poll);
    (code, fd.(base := b))
  }

  /** `wait()` as inherited from the base detector: a result-ready wait only when the three guards pass. */
  function Wait(fd: FaceDetector): (r: FaceDetector)
    ensures Valid(fd.base) ==> Valid(r.base)
    ensures r.(base := fd.base) == fd
    ensures r.base.(calls := fd.base.calls) == Checked(fd.base)
    ensures IsEnabled(fd.base) && fd.base.hasRequest && fd.base.isAsync ==> r.base.calls == fd.base.calls + [WaitResultReady]
    ensures !(IsEnabled(fd.base) && fd.base.hasRequest && fd.base.isAsync) ==> r.base.calls == fd.base.calls
  {
    fd.(base := BaseDetectors.Wait(fd.base))
  }

  // ---------------------------------------------------------------------------
  // Properties relating several calls

  /** A new face detector is enabled exactly when it was given a model path. */
  lemma NewEnabledIffModelPath(pathToModel: string, isAsync: bool, detectionThreshold: real)
    ensures IsEnabled(New(pathToModel, isAsync, detectionThreshold).base) <==> |pathToModel| > 0
  {
  }

  /** A second fetch with no submit in between leaves the results empty and the detector marked as fetched. */
  lemma SecondFetchIsEmpty(fd: FaceDetector, output1: seq<real>, output2: seq<real>)
    requires CanFetch(fd, output1) && IsEnabled(fd.base)
    requires HoldsRecords(output2, fd.maxProposalCount)
    ensures var once := FetchResults(fd, output1);
            CanFetch(once, output2) && FetchResults(once, output2).results == [] && FetchResults(once, output2).resultsFetched
  {
  }

  /**
   Enqueue, submit, fetch on an enabled detector: the results are the parse of the
   output against the enqueued frame's size, and every one of them passes the
   threshold.
   */
  lemma EnqueueSubmitFetch(fd: FaceDetector, frame: Mat, output: seq<real>)
    requires IsEnabled(fd.base)
    requires HoldsRecords(output, fd.maxProposalCount)
    ensures var s := SubmitRequest(Enqueue(fd, frame));
            && CanFetch(s, output)
            && FetchResults(s, output).results
               == Parse(Records(output, fd.maxProposalCount), fd.detectionThreshold, frame.Cols() as real, frame.Rows() as real)
  {
  }

  /** `submitRequest` with no waiting frame never reaches the backend, however often it is called. */
  lemma SubmitWithoutFrameIsInert(fd: FaceDetector)
    requires fd.enquedFrames == 0
    ensures SubmitRequest(SubmitRequest(fd)) == fd
    ensures SubmitRequest(fd).base.calls == fd.base.calls
  {
  }

  /** Submitting twice after one enqueue starts the backend only once. */
  lemma DoubleSubmitStartsOnce(fd: FaceDetector, frame: Mat)
    requires IsEnabled(fd.base)
    ensures var once := SubmitRequest(Enqueue(fd, frame));
            SubmitRequest(once) == once
  {
  }
}

=== FILE: fusion.dfy ===
/**
 The detect/track loop of main.cpp as a step function over the loop's state.
 Per frame: poll the detector and, on a cadence frame where the result is
 ready, harvest it and submit the current frame (unless it is the last);
 otherwise queue the frame. Then read the next frame, and track: on a cadence
 frame across the whole queue bracketed by the two detection frames, otherwise
 between the previous and the current frame. Finally stop, or rotate the frames.

 Everything the loop gets from outside (the backend's status poll and output
 buffer, the next video frame, the corners found on the detection frame, a key
 press) arrives in `Observations`; optical flow is a parameter.
 */
module Fusion {
  import opened Results
  import opened Cv
  import opened BaseDetectors
  import opened DetectionOutput
  import opened FaceDetectors
  import opened Tracking

  /** Results are harvested and corners re-detected on every 30th frame. */
  const DetectionCadence: nat := 30

  /** Maximal pyramid level of the optical flow: 0 across the queue, 3 between consecutive frames. */
  const QueueFlowLevel: nat := 0
  const FrameFlowLevel: nat := 3

  /**
   `cap.read(mat)`: whether a frame was grabbed, and the frame. When nothing is
   grabbed `cap.read` releases the matrix, so the loop is left holding an empty one.
   */
  datatype ReadResult = ReadResult(ok: bool, frame: Mat) {
    /** The matrix `cap.read` leaves behind. */
    function Image(): Mat {
      if ok then frame else Empty
    }
  }

  /** The loop's variables. `boxes` is `prev_detection_results`, `points` is `feature_points`. */
  datatype Loop = Loop(
    detector: FaceDetector,
    framesCounter: nat,
    frameReadStatus: bool,
    frame: Mat,
    prevFrame: Mat,
    nextFrame: Mat,
    detectFrame: Mat,
    prevDetectFrame: Mat,
    queue: seq<Mat>,
    points: seq<Point>,
    boxes: seq<Detection>)

  /** What one iteration learns from outside the loop. */
  datatype Observations = Observations(
    poll: StatusCode,
    output: seq<real>,
    next: ReadResult,
    corners: seq<Point>,
    keyPressed: bool)

  datatype Outcome = Continue(state: Loop) | Exit(state: Loop)

  datatype StartError = NoFirstFrame

  /**
   Before the loop: the first frame must be read; it is enqueued and submitted
   for detection, becomes the detection frame and the previous frame, and the
   second frame is read.
   */
  function Start(fd: FaceDetector, first: ReadResult, second: ReadResult): (r: Result<Loop, StartError>)
    ensures r.Failure? <==> !first.ok
    ensures r.Success? ==>
              && r.value.detector == SubmitRequest(Enqueue(fd, first.frame))
              && r.value.detectFrame == first.frame && r.value.prevFrame == first.frame
              && r.value.frameReadStatus == second.ok
              && (second.ok ==> r.value.frame == second.frame)
              && (!second.ok ==> r.value.frame == Empty)
              && r.value.framesCounter == 0 && r.value.prevDetectFrame == Empty && r.value.nextFrame == Empty
              && r.value.queue == [] && r.value.points == [] && r.value.boxes == []
  {
    if !first.ok then Failure(NoFirstFrame)
    else
      var detector := SubmitRequest(Enqueue(fd, first.frame));
      Success(Loop(detector, 0, second.ok, second.Image(), first.frame, Empty, first.frame, Empty, [], [], []))
  }

  /** On the frame whose counter is `s.framesCounter`: the detector reports `Ok` and it is a cadence frame. */
  predicate Harvests(s: Loop, poll: StatusCode)
    ensures Harvests(s, poll) <==>
              && IsEnabled(s.detector.base) && s.detector.base.hasRequest && s.detector.base.isAsync
              && poll == Ok && s.framesCounter % DetectionCadence == 0
  {
    FaceDetectors.Status(s.detector, poll).0 == Ok && s.framesCounter % DetectionCadence == 0
  }

  /** The detector after `status()`, `wait()` and `fetchResults()` on a harvesting frame. */
  function Harvested(s: Loop, poll: StatusCode, output: seq<real>): (fd: FaceDetector)
    requires Harvests(s, poll)
    requires HoldsRecords(output, s.detector.maxProposalCount)
    ensures fd.resultsFetched
    ensures forall k :: 0 <= k < |fd.results| ==> fd.results[k].confidence > s.detector.detectionThreshold
    ensures fd.maxProposalCount == s.detector.maxProposalCount
  {
    FetchResults(FaceDetectors.Wait(FaceDetectors.Status(s.detector, poll).1), output)
  }

  /**
   Lines 165-183: harvest and resubmit, or queue the frame. The submission and
   the shift of the two detection frames happen only when this is not the last frame.
   */
  function Dispatch(s: Loop, isLast: bool, poll: StatusCode, output: seq<real>): (r: Loop)
    requires HoldsRecords(output, s.detector.maxProposalCount)
    ensures r.framesCounter == s.framesCounter && r.frameReadStatus == s.frameReadStatus
    ensures r.frame == s.frame && r.prevFrame == s.prevFrame && r.nextFrame == s.nextFrame
    ensures !Harvests(s, poll) ==>
              r == s.(detector := FaceDetectors.Status(s.detector, poll).1, queue := s.queue + [s.frame])
    ensures Harvests(s, poll) ==>
              && r.queue == s.queue
              && r.boxes == Harvested(s, poll, output).results
              && r.(detector := s.detector, boxes := s.boxes, detectFrame := s.detectFrame, prevDetectFrame := s.prevDetectFrame) == s
    ensures Harvests(s, poll) && isLast ==>
              r.detector == Harvested(s, poll, output) && r.detectFrame == s.detectFrame && r.prevDetectFrame == s.prevDetectFrame
    ensures Harvests(s, poll) && !isLast ==>
              && r.detector == SubmitRequest(Enqueue(Harvested(s, poll, output), s.frame))
              && r.prevDetectFrame == s.detectFrame && r.detectFrame == s.frame
  {
    var (code, d1) := FaceDetectors.Status(s.detector, poll);
    if code == Ok && s.framesCounter % DetectionCadence == 0 then
      var d2 := FetchResults(FaceDetectors.Wait(d1), output);
      var harvested := s.(boxes := d2.results);
      if isLast then harvested.(detector := d2)
      else harvested.(detector := SubmitRequest(Enqueue(d2, s.frame)), prevDetectFrame := s.detectFrame, detectFrame := s.frame)
    else
      s.(detector := d1, queue := s.queue + [s.frame])
  }

  /** The frame queue with the previous detection frame in front and the current detection frame behind. */
  function Bracketed(s: Loop): (q: seq<Mat>)
    ensures |q| == |s.queue| + 2 && q[0] == s.prevDetectFrame && q[|q| - 1] == s.detectFrame
    ensures q[1..|q| - 1] == s.queue
  {
    [s.prevDetectFrame] + s.queue + [s.detectFrame]
  }

  /**
   Lines 192-301. On a cadence frame with detections: the points become the
   corners found on the previous detection frame, the whole bracketed queue is
   tracked, and the queue is cleared; with no detections nothing happens, not
   even the clearing. Between cadence frames: one step from the previous to the
   current frame, with the mean taken before filtering.
   */
  function Track(s: Loop, corners: seq<Point>, flow: Flow): (r: Loop)
    requires KeepsLength(flow)
    ensures s.framesCounter % DetectionCadence == 0 && |s.boxes| > 0 ==>
              var t := TrackQueue(flow, Bracketed(s), Tracks(corners, s.boxes));
              r == s.(queue := [], points := t.points, boxes := t.boxes)
    ensures s.framesCounter % DetectionCadence == 0 && |s.boxes| == 0 ==> r == s
    ensures s.framesCounter % DetectionCadence != 0 ==>
              var t := TrackStep(flow, FrameFlowLevel, s.prevFrame, s.frame, Tracks(s.points, s.boxes), false);
              r == s.(points := t.points, boxes := t.boxes)
    ensures s.framesCounter % DetectionCadence != 0 ==> |r.points| <= |s.points|
    ensures s.framesCounter % DetectionCadence != 0 && |s.points| == 0 ==> r == s
    ensures AllSameShape(r.boxes, s.boxes)
    ensures r.framesCounter == s.framesCounter && r.frameReadStatus == s.frameReadStatus && r.detector == s.detector
    ensures r.frame == s.frame && r.prevFrame == s.prevFrame && r.nextFrame == s.nextFrame
    ensures r.detectFrame == s.detectFrame && r.prevDetectFrame == s.prevDetectFrame
  {
    if s.framesCounter % DetectionCadence == 0 then
      if |s.boxes| > 0 then
        var t := TrackQueue(flow, Bracketed(s), Tracks(corners, s.boxes));
        s.(queue := [], points := t.points, boxes := t.boxes)
      else s
    else
      var t := TrackStep(flow, FrameFlowLevel, s.prevFrame, s.frame, Tracks(s.points, s.boxes), false);
      s.(points := t.points, boxes := t.boxes)
  }

  /** Lines 362-377: leave on the last frame or a key press; otherwise rotate previous, current and next frame. */
  function Advance(s: Loop, isLast: bool, keyPressed: bool): (o: Outcome)
    ensures o.Exit? <==> isLast || keyPressed
    ensures o.Exit? ==> o.state == s
    ensures o.Continue? ==> o.state == s.(prevFrame := s.frame, frame := s.nextFrame, nextFrame := Empty)
  {
    if isLast then Exit(s)
    else if keyPressed then Exit(s)
    else Continue(s.(prevFrame := s.frame, frame := s.nextFrame, nextFrame := Empty))
  }

  /** The state after the first three phases of an iteration, before the exit test. */
  function Phases(s: Loop, obs: Observations, flow: Flow): (r: Loop)
    requires KeepsLength(flow)
    requires HoldsRecords(obs.output, s.detector.maxProposalCount)
    ensures r.framesCounter == s.framesCounter + 1
    ensures r.frame == s.frame && r.prevFrame == s.prevFrame
    ensures s.frameReadStatus ==> r.nextFrame == obs.next.Image() && r.frameReadStatus == obs.next.ok
  {
    Track(BeforeTracking(s, obs), obs.corners, flow)
  }

  /**
   Between cadence frames the phases only queue the frame and track one step:
   no point is gained, every box keeps its shape, the detection frames stay.
   */
  lemma PhasesBetweenCadence(s: Loop, obs: Observations, flow: Flow)
    requires KeepsLength(flow)
    requires HoldsRecords(obs.output, s.detector.maxProposalCount)
    ensures (s.framesCounter + 1) % DetectionCadence != 0 ==>
              var r := Phases(s, obs, flow);
              && r.queue == s.queue + [s.frame]
              && |r.points| <= |s.points|
              && AllSameShape(r.boxes, s.boxes)
              && r.detectFrame == s.detectFrame && r.prevDetectFrame == s.prevDetectFrame
  {
    var before := BeforeTracking(s, obs);
    assert Phases(s, obs, flow) == Track(before, obs.corners, flow);
  }

  /** One iteration of the `while (true)` loop. */
  function Step(s: Loop, obs: Observations, flow: Flow): (o: Outcome)
    requires KeepsLength(flow)
    requires HoldsRecords(obs.output, s.detector.maxProposalCount)
    ensures o.state.framesCounter == s.framesCounter + 1
    ensures o.Exit? <==> !s.frameReadStatus || obs.keyPressed
    ensures o.Continue? ==>
              && o.state.prevFrame == s.frame
              && o.state.frameReadStatus == obs.next.ok
              && (obs.next.ok ==> o.state.frame == obs.next.frame)
              && (!obs.next.ok ==> o.state.frame == Empty)
              && o.state.nextFrame == Empty
    ensures (s.framesCounter + 1) % DetectionCadence != 0 ==>
              && o.state.queue == s.queue + [s.frame]
              && |o.state.points| <= |s.points|
              && AllSameShape(o.state.boxes, s.boxes)
              && o.state.detectFrame == s.detectFrame && o.state.prevDetectFrame == s.prevDetectFrame
  {
    PhasesBetweenCadence(s, obs, flow);
    Advance(Phases(s, obs, flow), !s.frameReadStatus, obs.keyPressed)
  }

  // ---------------------------------------------------------------------------
  // Properties of the loop

  /** The frames a cadence pass tracks across: the queue's length plus one pairs, from the previous to the current detection frame. */
  lemma BracketedPairs(s: Loop)
    ensures var ps := Pairs(Bracketed(s));
            && |ps| == |s.queue| + 1
            && ps[0].0 == s.prevDetectFrame
            && ps[|ps| - 1].1 == s.detectFrame
  {
  }

  /** A synchronous detector never reports `Ok`, so its results are never harvested by the loop. */
  lemma SyncDetectorNeverHarvests(s: Loop, poll: StatusCode)
    requires !s.detector.base.isAsync
    ensures !Harvests(s, poll)
  {
  }

  /**
   On a cadence frame whose detections are non-empty the queue is tracked and
   emptied; when there are no detections, the queue is not cleared and has grown
   by the current frame unless the frame was harvested.
   */
  lemma CadenceQueue(s: Loop, obs: Observations, flow: Flow)
    requires KeepsLength(flow)
    requires HoldsRecords(obs.output, s.detector.maxProposalCount)
    requires (s.framesCounter + 1) % DetectionCadence == 0
    ensures |Phases(s, obs, flow).boxes| > 0 ==> Phases(s, obs, flow).queue == []
    ensures |Phases(s, obs, flow).boxes| == 0 ==>
              Phases(s, obs, flow).queue == s.queue || Phases(s, obs, flow).queue == s.queue + [s.frame]
  {
  }

  /**
   When no face is known after an iteration the queue has not shrunk: while a
   stream has no detections, every frame that is not harvested is queued and the
   queue is never cleared.
   */
  lemma QueueNeverShrinksWithoutFaces(s: Loop, obs: Observations, flow: Flow)
    requires KeepsLength(flow)
    requires HoldsRecords(obs.output, s.detector.maxProposalCount)
    requires Step(s, obs, flow).state.boxes == []
    ensures |Step(s, obs, flow).state.queue| >= |s.queue|
  {
  }

  /**
   Between cadence frames the boxes are recentred on the mean of the points as
   they were before this step (so the motion of this step plays no part), and
   the points become the survivors of the forward-backward check.
   */
  lemma BetweenCadenceMeanIsPreFilter(s: Loop, obs: Observations, flow: Flow)
    requires KeepsLength(flow)
    requires HoldsRecords(obs.output, s.detector.maxProposalCount)
    requires (s.framesCounter + 1) % DetectionCadence != 0 && |s.points| > 0
    ensures Phases(s, obs, flow).boxes == Recenter(s.boxes, Mean(s.points))
    ensures var fwd := flow(FrameFlowLevel, s.prevFrame, s.frame, s.points);
            Phases(s, obs, flow).points == Survivors(s.points, fwd, flow(FrameFlowLevel, s.frame, s.prevFrame, fwd))
  {
    var read := BeforeTracking(s, obs);
    assert read.points == s.points && read.boxes == s.boxes && read.prevFrame == s.prevFrame && read.frame == s.frame;
    assert read.framesCounter % DetectionCadence != 0;
    assert Phases(s, obs, flow) == Track(read, obs.corners, flow);
  }

  /** The state the tracking phase starts from: counted, dispatched and with the next frame read. */
  function BeforeTracking(s: Loop, obs: Observations): (r: Loop)
    requires HoldsRecords(obs.output, s.detector.maxProposalCount)
    ensures r.framesCounter == s.framesCounter + 1
    ensures r.frame == s.frame && r.prevFrame == s.prevFrame
    ensures s.frameReadStatus ==> r.nextFrame == obs.next.Image() && r.frameReadStatus == obs.next.ok
    ensures (s.framesCounter + 1) % DetectionCadence != 0 ==>
              && r.points == s.points && r.boxes == s.boxes
              && r.queue == s.queue + [s.frame]
              && r.detectFrame == s.detectFrame && r.prevDetectFrame == s.prevDetectFrame
  {
    var isLast := !s.frameReadStatus;
    var counted := s.(framesCounter := s.framesCounter + 1);
    var dispatched := Dispatch(counted, isLast, obs.poll, obs.output);
    if isLast then dispatched else dispatched.(frameReadStatus := obs.next.ok, nextFrame := obs.next.Image())
  }

  /** Each iteration keeps at most one asynchronous execution outstanding. */
  lemma StepKeepsOneInFlight(s: Loop, obs: Observations, flow: Flow)
    requires KeepsLength(flow)
    requires HoldsRecords(obs.output, s.detector.maxProposalCount)
    requires InFlight(s.detector.base.calls) <= 1
    ensures InFlight(Step(s, obs, flow).state.detector.base.calls) <= 1
  {
    var isLast := !s.frameReadStatus;
    var counted := s.(framesCounter := s.framesCounter + 1);
    DispatchKeepsOneInFlight(counted, isLast, obs.poll, obs.output);
    var before := BeforeTracking(s, obs);
    assert before.detector == Dispatch(counted, isLast, obs.poll, obs.output).detector;
    var phases := Phases(s, obs, flow);
    assert phases == Track(before, obs.corners, flow);
    assert Step(s, obs, flow) == Advance(phases, isLast, obs.keyPressed);
  }

  lemma DispatchKeepsOneInFlight(s: Loop, isLast: bool, poll: StatusCode, output: seq<real>)
    requires HoldsRecords(output, s.detector.maxProposalCount)
    requires InFlight(s.detector.base.calls) <= 1
    ensures InFlight(Dispatch(s, isLast, poll, output).detector.base.calls) <= 1
  {
    var d := s.detector;
    var calls := d.base.calls;
    var (code, d1) := FaceDetectors.Status(d, poll);
    if IsEnabled(d.base) && d.base.hasRequest && d.base.isAsync {
      assert d1.base.calls == calls + [WaitStatusOnly];
      InFlightOther(calls, WaitStatusOnly);
    } else {
      assert d1.base.calls == calls;
    }
    if Harvests(s, poll) {
      var d2 := FaceDetectors.Wait(d1);
      assert d2.base.calls == d1.base.calls + [WaitResultReady];
      InFlightAfterWait(d1.base.calls);
      var d3 := FetchResults(d2, output);
      assert d3.base.calls == d2.base.calls || d3.base.calls == d2.base.calls + [GetOutput];
      InFlightOther(d2.base.calls, GetOutput);
      if !isLast {
        var d4 := Enqueue(d3, s.frame);
        assert d4.base.calls == d3.base.calls + [SetInput(s.frame)];
        InFlightOther(d3.base.calls, SetInput(s.frame));
        var d5 := SubmitRequest(d4);
        assert d5.base.calls == d4.base.calls + [StartAsync];
        InFlightAfterStart(d4.base.calls);
      }
    }
  }

  /**
   Before the loop nothing is outstanding on a fresh detector, and the first
   submission starts at most one execution: with `StepKeepsOneInFlight`, at
   most one asynchronous execution is outstanding at every iteration.
   */
  lemma StartKeepsOneInFlight(fd: FaceDetector, first: ReadResult, second: ReadResult)
    requires InFlight(fd.base.calls) == 0
    ensures Start(fd, first, second).Success? ==> InFlight(Start(fd, first, second).value.detector.base.calls) <= 1
  {
    var calls := fd.base.calls;
    var e := Enqueue(fd, first.frame);
    if IsEnabled(fd.base) {
      if fd.base.hasRequest {
        assert e.base.calls == calls + [SetInput(first.frame)];
        InFlightOther(calls, SetInput(first.frame));
      } else {
        assert e.base.calls == (calls + [CreateInferRequest]) + [SetInput(first.frame)];
        InFlightOther(calls, CreateInferRequest);
        InFlightOther(calls + [CreateInferRequest], SetInput(first.frame));
      }
      assert InFlight(e.base.calls) == 0;
      assert e.enquedFrames == 1 && e.base.hasRequest && IsEnabled(e.base);
      if e.base.isAsync {
        assert SubmitRequest(e).base.calls == e.base.calls + [StartAsync];
        InFlightAfterStart(e.base.calls);
      } else {
        assert SubmitRequest(e).base.calls == e.base.calls + [Infer];
        InFlightOther(e.base.calls, Infer);
      }
    } else {
      assert e.base.calls == calls;
      assert SubmitRequest(e).base.calls == calls;
    }
  }

  /**
   A failed read ends the stream: the loop carries on once more, with the
   released (empty) matrix as its current frame, and that next iteration is the
   last one whatever it observes.
   */
  lemma FailedReadLeavesEmptyFrame(s: Loop, obs: Observations, obs2: Observations, flow: Flow)
    requires KeepsLength(flow)
    requires HoldsRecords(obs.output, s.detector.maxProposalCount)
    requires s.frameReadStatus && !obs.next.ok && !obs.keyPressed
    ensures Step(s, obs, flow).Continue?
    ensures Step(s, obs, flow).state.frame == Empty && !Step(s, obs, flow).state.frameReadStatus
    ensures HoldsRecords(obs2.output, Step(s, obs, flow).state.detector.maxProposalCount) ==>
              Step(Step(s, obs, flow).state, obs2, flow).Exit?
  {
  }
}

=== FILE: results.dfy ===
/** Failure-carrying values for the operations that throw in the program. */
module Results {

  datatype Option<+T> = None | Some(value: T)

  /** Either the value an operation produced or the error it raised. */
  datatype Result<+T, +E> = Success(value: T) | Failure(error: E) {

    predicate IsFailure() {
      Failure?
    }

    function PropagateFailure<U>(): Result<U, E>
      requires Failure?
    {
      Failure(error)
    }

    function Extract(): T
      requires Success?
    {
      value
    }
  }
}

=== FILE: timing.dfy ===
/**
 Call statistics and named timers (utils.cpp). A `CallStat` counts the calls
 of one measured section, sums their durations and keeps an exponential moving
 average with weight 0.1 on the newest duration, seeded by the first one. A
 `Timer` is a map from names to call statistics.

 Clock readings are parameters: `now` is the reading of the high-resolution
 clock in milliseconds at the moment the source reads it.
 */
module Timing {
  import opened Results
  import opened CppNumerics

  /** The weight of the newest duration in the moving average. */
  const Alpha: real := 0.1

  /**
   The statistics of one measured section. `smoothedDuration` is negative until
   the first duration has been recorded; `lastCallStart` is the clock reading
   of the most recent start.
   */
  datatype CallStat = CallStat(
    numberOfCalls: nat,
    totalDuration: real,
    lastCallDuration: real,
    smoothedDuration: real,
    lastCallStart: real)

  /** A fresh statistic: no calls, nothing measured, no average yet; the start is the clock's epoch. */
  function NewCallStat(): (c: CallStat)
    ensures c.numberOfCalls == 0 && c.totalDuration == 0.0 && c.lastCallDuration == 0.0
    ensures c.smoothedDuration < 0.0
  {
    CallStat(0, 0.0, 0.0, -1.0, 0.0)
  }

  /**
   Recording one measured duration: one more call, the total grows by the
   duration, and the average moves a tenth of the way towards it, after being
   seeded with the duration itself when there was no average yet.
   */
  function AddSample(c: CallStat, elapsed: real): (r: CallStat)
    ensures r.numberOfCalls == c.numberOfCalls + 1
    ensures r.totalDuration == c.totalDuration + elapsed
    ensures r.lastCallDuration == elapsed && r.lastCallStart == c.lastCallStart
    ensures c.smoothedDuration < 0.0 ==> r.smoothedDuration == elapsed
    ensures c.smoothedDuration >= 0.0 ==> r.smoothedDuration - elapsed == (1.0 - Alpha) * (c.smoothedDuration - elapsed)
    ensures c.smoothedDuration >= 0.0 ==>
              Min(c.smoothedDuration, elapsed) <= r.smoothedDuration <= Max(c.smoothedDuration, elapsed)
  {
    var seed := if c.smoothedDuration < 0.0 then elapsed else c.smoothedDuration;
    CallStat(c.numberOfCalls + 1, c.totalDuration + elapsed, elapsed,
             seed * (1.0 - Alpha) + elapsed * Alpha, c.lastCallStart)
  }

  /** `calculateDuration()`: the duration since the last start, recorded as a sample. */
  function CalculateDuration(c: CallStat, now: real): (r: CallStat)
    ensures r.lastCallDuration == now - c.lastCallStart
    ensures r.numberOfCalls == c.numberOfCalls + 1
    ensures r.totalDuration == c.totalDuration + r.lastCallDuration
    ensures c.smoothedDuration < 0.0 ==> r.smoothedDuration == r.lastCallDuration
  {
    AddSample(c, now - c.lastCallStart)
  }

  /** `setStartTime()`: only the start reading changes. */
  function SetStartTime(c: CallStat, now: real): (r: CallStat)
    ensures r.lastCallStart == now
    ensures r.(lastCallStart := c.lastCallStart) == c
  {
    c.(lastCallStart := now)
  }

  /**
   `getSmoothedDuration()`: the moving average, or, while there is none yet,
   the time elapsed since the last start.
   */
  function GetSmoothedDuration(c: CallStat, now: real): (d: real)
    ensures c.smoothedDuration >= 0.0 ==> d == c.smoothedDuration
    ensures c.smoothedDuration < 0.0 ==> d == now - c.lastCallStart
  {
    if c.smoothedDuration < 0.0 then now - c.lastCallStart else c.smoothedDuration
  }

  /** `getTotalDuration()`. */
  function GetTotalDuration(c: CallStat): real {
    c.totalDuration
  }

  // ---------------------------------------------------------------------------
  // A sequence of samples

  function Sum(ds: seq<real>): real {
    if ds == [] then 0.0 else ds[0] + Sum(ds[1..])
  }

  /** The statistic after recording the samples `ds` in order. */
  function AddSamples(c: CallStat, ds: seq<real>): (r: CallStat)
    decreases |ds|
  {
    if ds == [] then c else AddSamples(AddSample(c, ds[0]), ds[1..])
  }

  predicate InRange(ds: seq<real>, lo: real, hi: real) {
    forall k :: 0 <= k < |ds| ==> lo <= ds[k] <= hi
  }

  /**
   After any samples the call count has grown by their number and the total by
   their sum, and the start reading is untouched.
   */
  lemma {:induction false} AddSamplesCountsAndSums(c: CallStat, ds: seq<real>)
    ensures AddSamples(c, ds).numberOfCalls == c.numberOfCalls + |ds|
    ensures GetTotalDuration(AddSamples(c, ds)) == GetTotalDuration(c) + Sum(ds)
    ensures AddSamples(c, ds).lastCallStart == c.lastCallStart
    decreases |ds|
  {
    if ds != [] {
      AddSamplesCountsAndSums(AddSample(c, ds[0]), ds[1..]);
    }
  }

  /**
   Once at least one sample has been recorded, the moving average lies within
   the range of the samples, provided the average it started from did (or there
   was none).
   */
  lemma {:induction false} AddSamplesStayInRange(c: CallStat, ds: seq<real>, lo: real, hi: real)
    requires InRange(ds, lo, hi)
    requires c.smoothedDuration >= 0.0 ==> lo <= c.smoothedDuration <= hi
    requires |ds| > 0 || lo <= c.smoothedDuration <= hi
    ensures lo <= AddSamples(c, ds).smoothedDuration <= hi
    decreases |ds|
  {
    if ds != [] {
      var next := AddSample(c, ds[0]);
      assert lo <= next.smoothedDuration <= hi;
      assert InRange(ds[1..], lo, hi) by {
        forall k | 0 <= k < |ds[1..]| ensures lo <= ds[1..][k] <= hi {
          assert ds[1..][k] == ds[k + 1];
        }
      }
      AddSamplesStayInRange(next, ds[1..], lo, hi);
    }
  }

  /** From a fresh statistic, the average of a non-empty run of samples lies between their least and greatest. */
  lemma FreshAverageInRange(ds: seq<real>, lo: real, hi: real)
    requires |ds| > 0 && InRange(ds, lo, hi)
    ensures lo <= AddSamples(NewCallStat(), ds).smoothedDuration <= hi
    ensures AddSamples(NewCallStat(), ds).numberOfCalls == |ds|
    ensures GetTotalDuration(AddSamples(NewCallStat(), ds)) == Sum(ds)
  {
    AddSamplesStayInRange(NewCallStat(), ds, lo, hi);
    AddSamplesCountsAndSums(NewCallStat(), ds);
  }

  // ---------------------------------------------------------------------------
  // Named timers

  datatype Timer = Timer(timers: map<string, CallStat>)

  datatype TimerError = NoTimer(name: string)

  /**
   `start(name)`: create the statistic if the name is new, then set its start;
   no other timer changes.
   */
  function Start(t: Timer, name: string, now: real): (r: Timer)
    ensures r.timers.Keys == t.timers.Keys + {name}
    ensures name in t.timers ==> r.timers[name] == SetStartTime(t.timers[name], now)
    ensures name !in t.timers ==> r.timers[name] == SetStartTime(NewCallStat(), now)
    ensures forall other :: other in t.timers && other != name ==> r.timers[other] == t.timers[other]
  {
    var c := if name in t.timers then t.timers[name] else NewCallStat();
    Timer(t.timers[name := SetStartTime(c, now)])
  }

  /** `operator[](name)`: the statistic of a known timer; an unknown name is an error. */
  function Get(t: Timer, name: string): (r: Result<CallStat, TimerError>)
    ensures r.Success? <==> name in t.timers
    ensures r.Success? ==> r.value == t.timers[name]
    ensures r.Failure? ==> r.error == NoTimer(name)
  {
    if name !in t.timers then Failure(NoTimer(name)) else Success(t.timers[name])
  }

  /**
   `finish(name)`: record the duration since the timer's start; an unknown name
   is an error and creates nothing.
   */
  function Finish(t: Timer, name: string, now: real): (r: Result<Timer, TimerError>)
    ensures r.Failure? <==> name !in t.timers
    ensures r.Failure? ==> r.error == NoTimer(name)
    ensures r.Success? ==> r.value.timers.Keys == t.timers.Keys
    ensures r.Success? ==> r.value.timers[name] == CalculateDuration(t.timers[name], now)
    ensures r.Success? ==> forall other :: other in t.timers && other != name ==> r.value.timers[other] == t.timers[other]
  {
    var c :- Get(t, name);
    Success(Timer(t.timers[name := CalculateDuration(c, now)]))
  }

  // ---------------------------------------------------------------------------
  // Properties relating several calls

  /**
   Starting and then finishing a timer always succeeds and records exactly the
   time between the two readings as one more call.
   */
  lemma StartThenFinish(t: Timer, name: string, t0: real, t1: real)
    ensures var r := Finish(Start(t, name, t0), name, t1);
            && r.Success?
            && r.value.timers[name].lastCallDuration == t1 - t0
            && r.value.timers[name].numberOfCalls == (if name in t.timers then t.timers[name].numberOfCalls else 0) + 1
  {
  }

  /**
   The first start and finish of a new timer seed the average with the measured
   time, so the smoothed duration reported afterwards is that time, unless the
   clock went backwards (a negative average counts as none).
   */
  lemma FirstMeasurementSeedsAverage(t: Timer, name: string, t0: real, t1: real, later: real)
    requires name !in t.timers
    ensures var r := Finish(Start(t, name, t0), name, t1);
            && r.Success?
            && r.value.timers[name].smoothedDuration == t1 - t0
            && r.value.timers[name].totalDuration == t1 - t0
            && (t0 <= t1 ==> GetSmoothedDuration(r.value.timers[name], later) == t1 - t0)
            && (t1 < t0 ==> GetSmoothedDuration(r.value.timers[name], later) == later - t0)
  {
  }
}

=== FILE: tracking.dfy ===
/**
 Forward-backward optical-flow tracking (main.cpp): points are tracked from one
 frame to the next and back again; a point survives when it comes back within
 one pixel of where it started; the mean of a point set becomes the common
 centre of every detected box, whose sizes are left alone.

 Optical flow itself is a parameter: given a pyramid depth, two frames and a
 point set it returns one tracked position per point.
 */
module Tracking {
  import opened Cv
  import opened CppNumerics
  import opened DetectionOutput

  /** `calcOpticalFlowPyrLK` as a function of (maximal pyramid level, from, to, points). */
  type Flow = (nat, Mat, Mat, seq<Point>) -> seq<Point>

  /** Optical flow reports one position per input point. */
  ghost predicate KeepsLength(flow: Flow) {
    forall level, a, b, ps :: |flow(level, a, b, ps)| == |ps|
  }

  /** Forward-backward tolerance in pixels. */
  const FbTolerance: real := 1.0

  /** A point whose round trip `p -> forward -> back` stays within the tolerance in both coordinates. */
  predicate Consistent(p: Point, back: Point) {
    Max(Abs(p.x - back.x), Abs(p.y - back.y)) <= FbTolerance
  }

  /** The larger absolute difference is within the tolerance exactly when each coordinate differs by at most one pixel either way. */
  lemma ConsistentIffWithinOnePixel(p: Point, back: Point)
    ensures Consistent(p, back) <==>
              && -1.0 <= p.x - back.x <= 1.0
              && -1.0 <= p.y - back.y <= 1.0
  {
  }

  /**
   The forward-backward filter: the forward positions of the consistent points,
   in their original order. `pts`, `fwd` and `rev` are the original, forward and
   backward positions.
   */
  function Survivors(pts: seq<Point>, fwd: seq<Point>, rev: seq<Point>): (good: seq<Point>)
    requires |fwd| == |pts| && |rev| == |pts|
    ensures |good| <= |pts|
    decreases |pts|
  {
    if |pts| == 0 then []
    else
      var n := |pts| - 1;
      Survivors(pts[..n], fwd[..n], rev[..n]) + (if Consistent(pts[n], rev[n]) then [fwd[n]] else [])
  }

  /** Indices of the consistent points, in increasing order. */
  function KeptIndices(pts: seq<Point>, rev: seq<Point>): (idx: seq<nat>)
    requires |rev| == |pts|
    ensures forall k :: 0 <= k < |idx| ==> idx[k] < |pts| && Consistent(pts[idx[k]], rev[idx[k]])
    ensures forall i :: 0 <= i < |pts| && Consistent(pts[i], rev[i]) ==> i in idx
    ensures forall k, l :: 0 <= k < l < |idx| ==> idx[k] < idx[l]
    decreases |pts|
  {
    if |pts| == 0 then []
    else
      var n := |pts| - 1;
      KeptIndices(pts[..n], rev[..n]) + (if Consistent(pts[n], rev[n]) then [n] else [])
  }

  /**
   The filter keeps exactly the consistent points: its k-th survivor is the
   forward position of the k-th consistent index.
   */
  lemma {:induction false} SurvivorsAreKeptForwardPositions(pts: seq<Point>, fwd: seq<Point>, rev: seq<Point>)
    requires |fwd| == |pts| && |rev| == |pts|
    ensures |Survivors(pts, fwd, rev)| == |KeptIndices(pts, rev)|
    ensures forall k :: 0 <= k < |KeptIndices(pts, rev)| ==>
              Survivors(pts, fwd, rev)[k] == fwd[KeptIndices(pts, rev)[k]]
    decreases |pts|
  {
    if |pts| > 0 {
      var n := |pts| - 1;
      SurvivorsAreKeptForwardPositions(pts[..n], fwd[..n], rev[..n]);
      var kept := Survivors(pts[..n], fwd[..n], rev[..n]);
      var idx := KeptIndices(pts[..n], rev[..n]);
      var last: seq<Point> := if Consistent(pts[n], rev[n]) then [fwd[n]] else [];
      var lastIdx: seq<nat> := if Consistent(pts[n], rev[n]) then [n] else [];
      assert Survivors(pts, fwd, rev) == kept + last;
      assert KeptIndices(pts, rev) == idx + lastIdx;
      forall k | 0 <= k < |idx + lastIdx|
        ensures (kept + last)[k] == fwd[(idx + lastIdx)[k]]
      {
        if k < |idx| {
          assert fwd[..n][idx[k]] == fwd[idx[k]];
        }
      }
    }
  }

  /** A point that comes back exactly where it started always survives: with zero error nothing is dropped. */
  lemma {:induction false} ZeroErrorKeepsAll(pts: seq<Point>, fwd: seq<Point>)
    requires |fwd| == |pts|
    ensures Survivors(pts, fwd, pts) == fwd
    decreases |pts|
  {
    if |pts| > 0 {
      var n := |pts| - 1;
      ZeroErrorKeepsAll(pts[..n], fwd[..n]);
      assert Consistent(pts[n], pts[n]);
      assert fwd[..n] + [fwd[n]] == fwd;
    }
  }

  /** A point whose round trip is off by more than the tolerance in either coordinate is always dropped. */
  lemma LargeErrorIsDropped(pts: seq<Point>, fwd: seq<Point>, rev: seq<Point>, i: nat)
    requires |fwd| == |pts| && |rev| == |pts| && i < |pts|
    requires Abs(pts[i].x - rev[i].x) > FbTolerance || Abs(pts[i].y - rev[i].y) > FbTolerance
    ensures i !in KeptIndices(pts, rev)
  {
  }

  // ---------------------------------------------------------------------------
  // Mean position

  function Add(p: Point, q: Point): Point {
    Point(p.x + q.x, p.y + q.y)
  }

  /** Sum of a point set. */
  function Sum(ps: seq<Point>): Point
    decreases |ps|
  {
    if |ps| == 0 then Point(0.0, 0.0)
    else Add(Sum(ps[..|ps| - 1]), ps[|ps| - 1])
  }

  /**
   The loop `mean_pos += point / float(n)` over `ps`, starting from the origin:
   each point divided by `n` and added in turn, which amounts to the sum divided by `n`.
   */
  function Accumulate(ps: seq<Point>, n: real): (m: Point)
    requires n > 0.0
    ensures m == Point(Sum(ps).x / n, Sum(ps).y / n)
    decreases |ps|
  {
    if |ps| == 0 then Point(0.0, 0.0)
    else
      var p := ps[|ps| - 1];
      Add(Accumulate(ps[..|ps| - 1], n), Point(p.x / n, p.y / n))
  }

  /**
   The mean position the tracker computes: each point divided by the count,
   summed, which is the average; a default-constructed `cv::Point2f` (the
   origin) for an empty set.
   */
  function Mean(ps: seq<Point>): (m: Point)
    ensures |ps| == 0 ==> m == Point(0.0, 0.0)
    ensures |ps| > 0 ==> m == Point(Sum(ps).x / |ps| as real, Sum(ps).y / |ps| as real)
  {
    if |ps| == 0 then Point(0.0, 0.0) else Accumulate(ps, |ps| as real)
  }

  /** Every point of `ps` lies in the axis-aligned box from `lo` to `hi`. */
  predicate InBox(ps: seq<Point>, lo: Point, hi: Point) {
    forall i :: 0 <= i < |ps| ==> lo.x <= ps[i].x <= hi.x && lo.y <= ps[i].y <= hi.y
  }

  /** `n * v`, written as repeated addition so that the bound proofs stay linear. */
  function Times(n: nat, v: real): real {
    if n == 0 then 0.0 else Times(n - 1, v) + v
  }

  lemma {:induction false} TimesIsProduct(n: nat, v: real)
    ensures Times(n, v) == n as real * v
  {
    if n > 0 {
      TimesIsProduct(n - 1, v);
    }
  }

  lemma {:induction false} SumInScaledBox(ps: seq<Point>, lo: Point, hi: Point)
    requires InBox(ps, lo, hi)
    ensures Times(|ps|, lo.x) <= Sum(ps).x <= Times(|ps|, hi.x)
    ensures Times(|ps|, lo.y) <= Sum(ps).y <= Times(|ps|, hi.y)
    decreases |ps|
  {
    if |ps| > 0 {
      var n := |ps| - 1;
      var prefix := ps[..n];
      assert InBox(prefix, lo, hi) by {
        forall i | 0 <= i < |prefix|
          ensures lo.x <= prefix[i].x <= hi.x && lo.y <= prefix[i].y <= hi.y
        {
          assert prefix[i] == ps[i];
        }
      }
      SumInScaledBox(prefix, lo, hi);
    }
  }

  /** The mean of a non-empty set lies in any box that holds every point of the set. */
  lemma MeanInBox(ps: seq<Point>, lo: Point, hi: Point)
    requires |ps| > 0 && InBox(ps, lo, hi)
    ensures lo.x <= Mean(ps).x <= hi.x && lo.y <= Mean(ps).y <= hi.y
  {
    var sum := Sum(ps);
    SumInScaledBox(ps, lo, hi);
    ScaledBoundsDivide(|ps|, lo.x, sum.x, hi.x);
    ScaledBoundsDivide(|ps|, lo.y, sum.y, hi.y);
  }

  /** A value between `n` copies of `lo` and `n` copies of `hi`, divided by `n`, lies between `lo` and `hi`. */
  lemma ScaledBoundsDivide(n: nat, lo: real, s: real, hi: real)
    requires n > 0 && Times(n, lo) <= s <= Times(n, hi)
    ensures lo <= s / n as real <= hi
  {
    TimesIsProduct(n, lo);
    TimesIsProduct(n, hi);
    DivideBounds(n as real, lo, s, hi);
  }

  lemma DivideBounds(n: real, lo: real, s: real, hi: real)
    requires n > 0.0 && n * lo <= s <= n * hi
    ensures lo <= s / n <= hi
  {
    assert s / n * n == s;
  }

  // ---------------------------------------------------------------------------
  // Box recentering

  /** `box.location.x = mean.x - width / 2` (and likewise for y), each truncated into the integer rectangle. */
  function RecenterBox(d: Detection, mean: Point): (r: Detection)
    ensures r.classId == d.classId && r.confidence == d.confidence
    ensures r.location.width == d.location.width && r.location.height == d.location.height
  {
    var loc := d.location;
    d.(location := loc.(x := Trunc(mean.x - Half(loc.width) as real),
                        y := Trunc(mean.y - Half(loc.height) as real)))
  }

  /** Every box recentred on the same mean. */
  function Recenter(boxes: seq<Detection>, mean: Point): (r: seq<Detection>)
    ensures |r| == |boxes|
    ensures forall i :: 0 <= i < |boxes| ==> r[i] == RecenterBox(boxes[i], mean)
  {
    seq(|boxes|, i requires 0 <= i < |boxes| => RecenterBox(boxes[i], mean))
  }

  /** Same label, confidence and size: what tracking never changes about a box. */
  predicate SameShape(a: Detection, b: Detection) {
    a.classId == b.classId && a.confidence == b.confidence
    && a.location.width == b.location.width && a.location.height == b.location.height
  }

  predicate AllSameShape(a: seq<Detection>, b: seq<Detection>) {
    |a| == |b| && forall i :: 0 <= i < |a| ==> SameShape(a[i], b[i])
  }

  /**
   After recentering, every box's integer centre (corner plus half its size)
   is within one pixel of the mean in each coordinate, and boxes of the same
   size land on the same rectangle.
   */
  lemma RecenteredBoxesShareCentre(boxes: seq<Detection>, mean: Point, i: nat, j: nat)
    requires i < |boxes| && j < |boxes|
    ensures var r := Recenter(boxes, mean)[i].location;
            && -1.0 < (r.x + Half(r.width)) as real - mean.x < 1.0
            && -1.0 < (r.y + Half(r.height)) as real - mean.y < 1.0
    ensures boxes[i].location.width == boxes[j].location.width && boxes[i].location.height == boxes[j].location.height
            ==> Recenter(boxes, mean)[i].location == Recenter(boxes, mean)[j].location
  {
    var loc := boxes[i].location;
    TruncWithinOne(mean.x - Half(loc.width) as real);
    TruncWithinOne(mean.y - Half(loc.height) as real);
  }

  // ---------------------------------------------------------------------------
  // One tracking step and a pass over a frame queue

  /** What tracking carries from frame to frame: the feature points and the boxes. */
  datatype Tracks = Tracks(points: seq<Point>, boxes: seq<Detection>)

  /**
   Track from frame `a` to frame `b` at pyramid depth `level`: with no points
   nothing happens; otherwise the boxes are recentred on a mean and the points
   become the survivors. The mean is over the survivors when
   `meanOverSurvivors` holds, and over the points before filtering otherwise.
   */
  function TrackStep(flow: Flow, level: nat, a: Mat, b: Mat, t: Tracks, meanOverSurvivors: bool): (r: Tracks)
    requires KeepsLength(flow)
    ensures |t.points| == 0 ==> r == t
    ensures |r.points| <= |t.points|
    ensures AllSameShape(r.boxes, t.boxes)
  {
    if |t.points| == 0 then t
    else
      var fwd := flow(level, a, b, t.points);
      var rev := flow(level, b, a, fwd);
      var good := Survivors(t.points, fwd, rev);
      var mean := Mean(if meanOverSurvivors then good else t.points);
      Tracks(good, Recenter(t.boxes, mean))
  }

  /**
   A step whose mean is over the survivors and that loses every point recentres
   every box on the origin, the mean of an empty set; the points run out.
   */
  lemma NoSurvivorsRecentresOnOrigin(flow: Flow, level: nat, a: Mat, b: Mat, t: Tracks)
    requires KeepsLength(flow) && |t.points| > 0
    requires var fwd := flow(level, a, b, t.points);
             Survivors(t.points, fwd, flow(level, b, a, fwd)) == []
    ensures TrackStep(flow, level, a, b, t, true) == Tracks([], Recenter(t.boxes, Point(0.0, 0.0)))
  {
  }

  /** Consecutive pairs of a frame queue: `(q[0], q[1]), ..., (q[n-2], q[n-1])`. */
  function Pairs(q: seq<Mat>): (ps: seq<(Mat, Mat)>)
    ensures |q| > 0 ==> |ps| == |q| - 1
    ensures |q| == 0 ==> ps == []
    ensures forall i :: 0 <= i < |ps| ==> ps[i] == (q[i], q[i + 1])
  {
    if |q| == 0 then [] else seq(|q| - 1, i requires 0 <= i < |q| - 1 => (q[i], q[i + 1]))
  }

  /** Tracking steps over a sequence of frame pairs, in order, at pyramid depth 0 with the mean over survivors. */
  function TrackPairs(flow: Flow, pairs: seq<(Mat, Mat)>, t: Tracks): (r: Tracks)
    requires KeepsLength(flow)
    ensures |r.points| <= |t.points|
    ensures AllSameShape(r.boxes, t.boxes)
    decreases |pairs|
  {
    if |pairs| == 0 then t
    else TrackPairs(flow, pairs[1..], TrackStep(flow, 0, pairs[0].0, pairs[0].1, t, true))
  }

  /** The pass over a whole frame queue: every consecutive pair once, first to last. */
  function TrackQueue(flow: Flow, q: seq<Mat>, t: Tracks): (r: Tracks)
    requires KeepsLength(flow)
    ensures |r.points| <= |t.points|
    ensures AllSameShape(r.boxes, t.boxes)
    ensures |q| < 2 ==> r == t
  {
    TrackPairs(flow, Pairs(q), t)
  }

  /** Optical flow that reports no motion at all. */
  ghost predicate StillFlow(flow: Flow) {
    forall level, a, b, ps :: flow(level, a, b, ps) == ps
  }

  /**
   With no motion every point survives every step, and every box is recentred
   on the mean of the points.
   */
  lemma StillStepKeepsPoints(flow: Flow, level: nat, a: Mat, b: Mat, t: Tracks, meanOverSurvivors: bool)
    requires KeepsLength(flow) && StillFlow(flow) && |t.points| > 0
    ensures TrackStep(flow, level, a, b, t, meanOverSurvivors) == Tracks(t.points, Recenter(t.boxes, Mean(t.points)))
  {
    ZeroErrorKeepsAll(t.points, t.points);
  }

  /** With no motion a whole pass keeps the point set unchanged. */
  lemma {:induction false} StillPassKeepsPoints(flow: Flow, pairs: seq<(Mat, Mat)>, t: Tracks)
    requires KeepsLength(flow) && StillFlow(flow)
    ensures TrackPairs(flow, pairs, t).points == t.points
    decreases |pairs|
  {
    if |pairs| > 0 {
      var t1 := TrackStep(flow, 0, pairs[0].0, pairs[0].1, t, true);
      if |t.points| > 0 {
        StillStepKeepsPoints(flow, 0, pairs[0].0, pairs[0].1, t, true);
      }
      StillPassKeepsPoints(flow, pairs[1..], t1);
    }
  }

  /** A pass that starts without points changes nothing. */
  lemma {:induction false} PassWithoutPointsIsInert(flow: Flow, pairs: seq<(Mat, Mat)>, t: Tracks)
    requires KeepsLength(flow) && |t.points| == 0
    ensures TrackPairs(flow, pairs, t) == t
    decreases |pairs|
  {
    if |pairs| > 0 {
      PassWithoutPointsIsInert(flow, pairs[1..], t);
    }
  }
}
